=== FILE: README.md ===
# SARL: formal-parameter-list ordering and the standard SRE install

This project models two parts of the SARL tooling in Dafny and proves
properties of them.

**Formal-parameter-list ordering** (`FormalParameterListComparator`). This is
the `Comparator` that orders lists of formal parameters when action
signatures are keyed.
- A `null` list sorts before every non-null list: the result is
  `Integer.MIN_VALUE` when it is the first operand and `Integer.MAX_VALUE` when
  it is the second.
- Shorter lists come before longer ones.
- Lists of equal length are ordered by the first position whose parameters
  compare non-zero.
- Parameters compare by their type identifier under `String.compareTo`, with
  `null` parameters and `null` types first.

The module `FormalParameterOrdering` holds both comparisons. `CompareParameters`
is a function. The list comparison is a function (`ListComparison`) and a
method with the source's loop (`Compare`), proved equal. The module also proves
the `Comparator` contract: sign antisymmetry, transitivity, and congruence of
lists that compare 0. The proof goes through a reference order on what the
comparator looks at (`Key`, `CompareKeys`, `Lexicographic`).

**Standard SRE install** (`StandardSREInstall`). This is a SARL Runtime
Environment installed from one JAR file, in the module `SreInstall`.
- The install's settings form a record, `InstallState`.
- Each state-changing operation is a function from the old record to the new
  one: `WithJarFile` for `setJarFile`, `Resolve` for `resolveDirtyFields` and
  `FromXml` for `setFromXML`.
- The class `StandardSreInstall` holds the same settings as fields. Its methods
  update them in place, and each is proved to leave `State()` equal to its
  function applied to `old(State())`.
- The queries `getName`, `getLocation`, `getProgramArguments` and `getAsXML`
  are functions of the record.

The pieces of the platform the install relies on are reduced to what it uses:
- Eclipse `IPath` is the module `Paths`.
- OSGi `Version` is the module `Versions`.
- The DOM element is the module `Xml`.
- `Integer.compare`, `String.compareTo` and the 32-bit bounds are in `JavaLang`.

Some inputs and outputs become data:
- The JAR's manifest is a parameter: `None` when the JAR or its manifest cannot
  be read.
- Change events sent to listeners go to `firedEvents`.
- Messages written to the error log go to `errorLog`.

The module `SreInstallProperties` proves what these operations promise as
lemmas:
- the main class, the version bounds and the name are overwritten only when
  forced or empty, while every successful resolution gives the VM and
  program arguments the manifest's values, clears the VM-specific
  attributes and announces each argument string that changed;
- resolution is idempotent;
- the version range is `[major.minor.0, major.(minor+1).0]`;
- the name falls back to the jar file;
- the command line splits back into its parts;
- setFromXML reads library entries the way it does;
- the XML round trip restores the jar file, the name and the main class, and
  restores the library locations only with the corrected writer (see
  "## Findings").

The class comment of `StandardSREInstall` (line 55) names the manifest entry
for the SRE name `"Name"`. The code reads `"SRE-Name"` (line 197), and the model
follows the code.

## Model

Source paths are relative to the repository root.

| member | source | states |
|---|---|---|
| JavaLang.IntegerCompare | plugins/io.sarl.lang/src/io/sarl/lang/util/FormalParameterListComparator.java:58 | `Integer.compare` of the sizes is the sign of their difference |
| JavaLang.CompareToZeroIffEqual | plugins/io.sarl.lang/src/io/sarl/lang/util/FormalParameterListComparator.java:95 | `compareTo` of two identifiers is 0 exactly when they are equal |
| JavaLang.CompareToAntisymmetric | plugins/io.sarl.lang/src/io/sarl/lang/util/FormalParameterListComparator.java:95 | swapping the identifiers negates `compareTo` |
| JavaLang.CompareToTransitive | plugins/io.sarl.lang/src/io/sarl/lang/util/FormalParameterListComparator.java:95 | `compareTo` orders identifiers transitively |
| FormalParameterOrdering.CompareParameters | plugins/io.sarl.lang/src/io/sarl/lang/util/FormalParameterListComparator.java:78-103 | a null parameter is MIN_VALUE below a non-null one and MAX_VALUE above from the other side, and so is a null type; two typed parameters compare as their identifiers do; the result is 0 exactly when both have the same key (both null, both untyped, or the same identifier) |
| FormalParameterOrdering.ListComparison | plugins/io.sarl.lang/src/io/sarl/lang/util/FormalParameterListComparator.java:48-58 | identical lists give 0; a null first list gives MIN_VALUE, a null second list MAX_VALUE; a shorter list gives -1 and a longer one 1, whatever the contents |
| FormalParameterOrdering.Compare | plugins/io.sarl.lang/src/io/sarl/lang/util/FormalParameterListComparator.java:48-67 | the iterator loop returns exactly `ListComparison` |
| FormalParameterOrdering.FirstDifferenceDecides | plugins/io.sarl.lang/src/io/sarl/lang/util/FormalParameterListComparator.java:59-66 | with equal sizes, the first position whose parameters compare non-zero gives the result |
| FormalParameterOrdering.ListComparisonFirstDifference | plugins/io.sarl.lang/src/io/sarl/lang/util/FormalParameterListComparator.java:59-66 | two non-null lists of equal size compare as their parameters at the first position that compares non-zero |
| FormalParameterOrdering.FirstDifferenceZero | plugins/io.sarl.lang/src/io/sarl/lang/util/FormalParameterListComparator.java:59-66 | with equal sizes, the loop ends with 0 exactly when every position compares 0 |
| FormalParameterOrdering.ListComparisonZero | plugins/io.sarl.lang/src/io/sarl/lang/util/FormalParameterListComparator.java:48-66 | two non-null lists compare 0 exactly when they have the same size and the same key at every position |
| FormalParameterOrdering.ParametersByKey | plugins/io.sarl.lang/src/io/sarl/lang/util/FormalParameterListComparator.java:86-102 | the element comparison equals the reference order on keys, so names, default values and varargs flags are ignored, and the reference-equality shortcut changes no result |
| FormalParameterOrdering.ListsByKeys | plugins/io.sarl.lang/src/io/sarl/lang/util/FormalParameterListComparator.java:48-66 | the list comparison equals the reference order (null first, then by size, then lexicographic by key) |
| FormalParameterOrdering.ParametersAntisymmetric | plugins/io.sarl.lang/src/io/sarl/lang/util/FormalParameterListComparator.java:78-103 | `sign(compare(p1, p2)) == -sign(compare(p2, p1))`, as a `Comparator` must (line 39) |
| FormalParameterOrdering.ParametersTransitive | plugins/io.sarl.lang/src/io/sarl/lang/util/FormalParameterListComparator.java:78-103 | `compare(p1, p2) > 0` and `compare(p2, p3) > 0` give `compare(p1, p3) > 0` |
| FormalParameterOrdering.ListsAntisymmetric | plugins/io.sarl.lang/src/io/sarl/lang/util/FormalParameterListComparator.java:48-67 | `sign(compare(a, b)) == -sign(compare(b, a))` for lists, as a `Comparator` must (line 39) |
| FormalParameterOrdering.ListsTransitive | plugins/io.sarl.lang/src/io/sarl/lang/util/FormalParameterListComparator.java:48-67 | the list comparison is transitive |
| FormalParameterOrdering.ListsZeroCongruent | plugins/io.sarl.lang/src/io/sarl/lang/util/FormalParameterListComparator.java:48-67 | lists that compare 0 compare identically with every third list |
| SreInstall.StandardSreInstall.constructor | plugins/io.sarl.eclipse/src/io/sarl/eclipse/launch/sre/StandardSREInstall.java:68-81 | a new install has the given id, no jar file, empty argument strings and nothing read from a manifest |
| SreInstall.WithJarFile | plugins/io.sarl.eclipse/src/io/sarl/eclipse/launch/sre/StandardSREInstall.java:108-120 | the jar file becomes the path; an equal path changes nothing; a new one marks the install dirty and adds one change event (old path, new path) only when notification is on; no other setting changes |
| SreInstall.StandardSreInstall.SetJarFile | plugins/io.sarl.eclipse/src/io/sarl/eclipse/launch/sre/StandardSREInstall.java:108-120 | the new state is `WithJarFile` of the old one |
| SreInstallProperties.JarFileIdempotent | plugins/io.sarl.eclipse/src/io/sarl/eclipse/launch/sre/StandardSREInstall.java:108-120 | setting the same path twice changes nothing the second time, and at most one event is fired |
| SreInstall.Name | plugins/io.sarl.eclipse/src/io/sarl/eclipse/launch/sre/StandardSREInstall.java:131-143 | the stored name unless null or empty, else the jar file's last segment without its extension, else the id |
| Paths.RemoveFileExtension | plugins/io.sarl.eclipse/src/io/sarl/eclipse/launch/sre/StandardSREInstall.java:137 | removing the extension keeps a well-formed path well-formed and keeps it absolute or relative |
| Paths.StemOfFileName | plugins/io.sarl.eclipse/src/io/sarl/eclipse/launch/sre/StandardSREInstall.java:137 | a last segment `stem.ext` becomes `stem` |
| SreInstallProperties.NameOfUnnamedJar | plugins/io.sarl.eclipse/src/io/sarl/eclipse/launch/sre/StandardSREInstall.java:131-143 | an unnamed install whose jar is `.../stem.ext` is named `stem` |
| SreInstall.Location | plugins/io.sarl.eclipse/src/io/sarl/eclipse/launch/sre/StandardSREInstall.java:122-129 | the jar file in the host's notation (taken as `/`-separated), or the name when there is no jar file |
| SreInstallProperties.LocationNeverNull | plugins/io.sarl.eclipse/src/io/sarl/eclipse/launch/sre/StandardSREInstall.java:122-129 | `getLocation` never returns null: the jar file, else the name, which falls back to the id |
| SreInstall.ProgramArguments | plugins/io.sarl.eclipse/src/io/sarl/eclipse/launch/sre/StandardSREInstall.java:242-248 | the main class alone when the program arguments are empty, else main class, a space and the program arguments |
| SreInstallProperties.ProgramArgumentsSplit | plugins/io.sarl.eclipse/src/io/sarl/eclipse/launch/sre/StandardSREInstall.java:242-248 | splitting that command line at its first space gives back the main class and the program arguments, when the main class holds no space |
| SreInstall.Unnullify | plugins/io.sarl.eclipse/src/io/sarl/eclipse/launch/sre/StandardSREInstall.java:197 | `null` becomes `""` and any other value comes back unchanged, so the result is empty exactly when the value is null or empty |
| SreInstall.Overwrite | plugins/io.sarl.eclipse/src/io/sarl/eclipse/launch/sre/StandardSREInstall.java:189-194 | the manifest-derived value replaces the current one exactly when forced or when the current one is null or empty; otherwise the current one stays |
| Versions.ParseVersion | plugins/io.sarl.eclipse/src/io/sarl/eclipse/launch/sre/StandardSREInstall.java:180 | a parsed version has components within `Integer.MAX_VALUE` and a well-formed qualifier |
| Versions.VersionRoundTrip | plugins/io.sarl.eclipse/src/io/sarl/eclipse/launch/sre/StandardSREInstall.java:182-183 | parsing `Version.toString()` gives the version back |
| Versions.SpecVersionRange | plugins/io.sarl.eclipse/src/io/sarl/eclipse/launch/sre/StandardSREInstall.java:175-188 | both bounds are null exactly when the version is absent, empty or unparseable; a maximum comes only with a minimum; only the minimum is set exactly when the minor number is `Integer.MAX_VALUE` (the maximum's constructor throws) |
| Versions.SpecVersionWithinRange | plugins/io.sarl.eclipse/src/io/sarl/eclipse/launch/sre/StandardSREInstall.java:175-188 | `major.minor.x` gives minimum `major.minor.0` and maximum `major.(minor+1).0`, and the version lies between them |
| SreInstall.Resolve | plugins/io.sarl.eclipse/src/io/sarl/eclipse/launch/sre/StandardSREInstall.java:155-240 | an unreadable jar or manifest, a missing or empty `Main-Class`, and a missing `SARL-Runtime-Environment` section are each an error exactly in its case; the manifest main class is recorded before the check; settings changed before an error stay changed and nothing else does; id, jar file, notification and dirty flag never change |
| SreInstall.StandardSreInstall.ResolveDirtyFields | plugins/io.sarl.eclipse/src/io/sarl/eclipse/launch/sre/StandardSREInstall.java:155-240 | the new state and the error are those of `Resolve` |
| SreInstall.StandardSreInstall.ApplySection | plugins/io.sarl.eclipse/src/io/sarl/eclipse/launch/sre/StandardSREInstall.java:175-233 | the new state is `ApplySarlSection` of the old one: version range, name, VM and program arguments, and, when forced, the jar file as the only library location |
| SreInstall.StandardSreInstall.ApplyVersionRange | plugins/io.sarl.eclipse/src/io/sarl/eclipse/launch/sre/StandardSREInstall.java:189-194 | the new state is `WithVersionRange` of the old one |
| SreInstall.StandardSreInstall.ApplySreName | plugins/io.sarl.eclipse/src/io/sarl/eclipse/launch/sre/StandardSREInstall.java:197-200 | the new state is `WithSreName` of the old one |
| SreInstall.StandardSreInstall.UpdateVmArguments | plugins/io.sarl.eclipse/src/io/sarl/eclipse/launch/sre/StandardSREInstall.java:203-215 | the new state is `WithVmArguments`: the VM arguments become the manifest's, an event is fired when they differ and notification is on, and the VM-specific attributes are cleared |
| SreInstall.StandardSreInstall.UpdateProgramArguments | plugins/io.sarl.eclipse/src/io/sarl/eclipse/launch/sre/StandardSREInstall.java:218-227 | the new state is `WithProgramArguments`: likewise for the program arguments |
| SreInstallProperties.SectionIdempotent | plugins/io.sarl.eclipse/src/io/sarl/eclipse/launch/sre/StandardSREInstall.java:175-233 | applying the same section twice is applying it once, with no second round of events |
| SreInstallProperties.ResolveIdempotent | plugins/io.sarl.eclipse/src/io/sarl/eclipse/launch/sre/StandardSREInstall.java:155-240 | resolving twice from the same manifest gives the same state and error as resolving once |
| SreInstallProperties.ResolveForced | plugins/io.sarl.eclipse/src/io/sarl/eclipse/launch/sre/StandardSREInstall.java:161-233 | a forced, successful resolution takes main class, version range, name and arguments from the manifest whatever they were, clears the VM-specific attributes, and makes the jar file the only library location |
| SreInstallProperties.ResolveArguments | plugins/io.sarl.eclipse/src/io/sarl/eclipse/launch/sre/StandardSREInstall.java:202-227 | a successful resolution, forced or not, sets the VM and program arguments to the manifest's (null as empty) and clears the VM-specific attributes; one change event per argument string that differs, VM arguments first, only when notification is on |
| SreInstallProperties.ResolveKeepsExplicitSettings | plugins/io.sarl.eclipse/src/io/sarl/eclipse/launch/sre/StandardSREInstall.java:165-233 | an unforced resolution never replaces a non-empty main class, minimum, maximum or name, and never changes the library locations |
| SreInstallProperties.ResolveFillsEmptySettings | plugins/io.sarl.eclipse/src/io/sarl/eclipse/launch/sre/StandardSREInstall.java:161-200 | an unforced resolution fills an empty main class with `Main-Class` once that check passes, and on success fills an empty name with the section's `SRE-Name` |
| SreInstallProperties.ResolveFillsEmptyVersions | plugins/io.sarl.eclipse/src/io/sarl/eclipse/launch/sre/StandardSREInstall.java:175-194 | unforced, empty bounds are filled with `major.minor.0` and `major.(minor+1).0`, which bracket the specification version |
| SreInstall.ParsePath | plugins/io.sarl.eclipse/src/io/sarl/eclipse/launch/sre/StandardSREInstall.java:364-376 | the default for an empty string, the parsed path otherwise, never null when the default is not |
| Paths.FromPortableString | plugins/io.sarl.eclipse/src/io/sarl/eclipse/launch/sre/StandardSREInstall.java:367 | a parsed path has non-empty segments free of separators |
| Paths.PortableRoundTrip | plugins/io.sarl.eclipse/src/io/sarl/eclipse/launch/sre/StandardSREInstall.java:367 | parsing the portable form of a well-formed path gives it back |
| SreInstallProperties.ParsePathRoundTrip | plugins/io.sarl.eclipse/src/io/sarl/eclipse/launch/sre/StandardSREInstall.java:364-376 | `parsePath` of a portable form gives the path back, the empty path through the default `Path.EMPTY` |
| SreInstall.ParseUrl | plugins/io.sarl.eclipse/src/io/sarl/eclipse/launch/sre/StandardSREInstall.java:334-340 | a parsed URL has a non-empty protocol free of `:`; anything else leaves the javadoc location null |
| SreInstallProperties.UrlRoundTrip | plugins/io.sarl.eclipse/src/io/sarl/eclipse/launch/sre/StandardSREInstall.java:334-340 | parsing `URL.toString()` gives the URL back |
| SreInstall.ReadLibraryLocation | plugins/io.sarl.eclipse/src/io/sarl/eclipse/launch/sre/StandardSREInstall.java:327-347 | an entry gives a location exactly when its `systemLibraryPath` is non-empty |
| SreInstall.StandardSreInstall.ReadLibraryLocations | plugins/io.sarl.eclipse/src/io/sarl/eclipse/launch/sre/StandardSREInstall.java:321-349 | the loop over the children returns the locations of `ScanLibraryLocations` and appends its messages to the error log |
| SreInstallProperties.ScanKeepsValidEntries | plugins/io.sarl.eclipse/src/io/sarl/eclipse/launch/sre/StandardSREInstall.java:321-349 | the locations read are those of the `libraryLocation` entries with a system library path, in order; other nodes are skipped; one "Invalid XML format" message is logged per entry without a path |
| SreInstall.FromXml | plugins/io.sarl.eclipse/src/io/sarl/eclipse/launch/sre/StandardSREInstall.java:306-362 | `setFromXML` fails (IOException) exactly when `libraryPath` is missing or empty, and then changes nothing |
| SreInstall.StandardSreInstall.SetFromXml | plugins/io.sarl.eclipse/src/io/sarl/eclipse/launch/sre/StandardSREInstall.java:306-362 | the new state and the outcome are those of `FromXml` |
| SreInstall.StandardSreInstall.ApplyXmlSettings | plugins/io.sarl.eclipse/src/io/sarl/eclipse/launch/sre/StandardSREInstall.java:310-319 | the new state is `WithXmlSettings` of the old one |
| SreInstall.StandardSreInstall.ReadLibraries | plugins/io.sarl.eclipse/src/io/sarl/eclipse/launch/sre/StandardSREInstall.java:321-354 | the new state is `WithLibraryScan` of the old one and the scan of the children |
| SreInstallProperties.FromXmlSettings | plugins/io.sarl.eclipse/src/io/sarl/eclipse/launch/sre/StandardSREInstall.java:306-362 | with a library path: the jar file is the parsed path; name and main class are replaced only by non-empty attributes; the library locations only when a valid entry was read; the scan's messages appended to the error log, one per invalid entry; versions, arguments, manifest values, VM-specific attributes, id and notification untouched |
| SreInstall.AsXmlAttributes | plugins/io.sarl.eclipse/src/io/sarl/eclipse/launch/sre/StandardSREInstall.java:277-287 | attributes are written exactly when there is a jar file; tag and children are left alone |
| SreInstallProperties.AsXmlAttributesRead | plugins/io.sarl.eclipse/src/io/sarl/eclipse/launch/sre/StandardSREInstall.java:277-287 | `libraryPath` holds the jar's portable form; `name` is written when the name differs from the manifest's and `mainClass` when the main class does, otherwise left as they were |
| SreInstall.AsXmlAsWritten | plugins/io.sarl.eclipse/src/io/sarl/eclipse/launch/sre/StandardSREInstall.java:277-301 | as written, no child is added to the element |
| SreInstall.AsXml | plugins/io.sarl.eclipse/src/io/sarl/eclipse/launch/sre/StandardSREInstall.java:277-301 | corrected: the same attributes as `AsXmlAttributes`, and one `libraryLocation` child per library location appended, unless the only location is the jar file itself |
| SreInstallProperties.LibraryElementRoundTrip | plugins/io.sarl.eclipse/src/io/sarl/eclipse/launch/sre/StandardSREInstall.java:291-298 | the element written for a location is read back, by `setFromXML`'s rules, as that location |
| SreInstallProperties.ScanLibraryNodes | plugins/io.sarl.eclipse/src/io/sarl/eclipse/launch/sre/StandardSREInstall.java:288-300 | reading the written library elements gives every location back, in order, and logs nothing |
| SreInstallProperties.XmlRoundTripSettings | plugins/io.sarl.eclipse/src/io/sarl/eclipse/launch/sre/StandardSREInstall.java:277-319 | written and read back, the jar file is restored, and so are the name and main class that differ from the manifest's |
| SreInstallProperties.XmlRoundTripLibraries | plugins/io.sarl.eclipse/src/io/sarl/eclipse/launch/sre/StandardSREInstall.java:288-354 | with the corrected writer, the library locations are restored unless they are only the jar file or there are none (then the reader keeps its own), and nothing is logged |
| SreInstallProperties.AsWrittenDropsLibraryLocations | plugins/io.sarl.eclipse/src/io/sarl/eclipse/launch/sre/StandardSREInstall.java:288-300 | with the writer as written, reading its XML never changes the reader's library locations |
| SreInstallProperties.AsWrittenLosesTwoLibraries | plugins/io.sarl.eclipse/src/io/sarl/eclipse/launch/sre/StandardSREInstall.java:288-300 | an install with two library locations comes back with none as written, and with both when corrected |

## Left out

- `clone`, `copy(String)`, `getJarFile`, `getNameNoDefault` and `getVMArguments` are not modelled. They copy the object or return a field as it is.
- `isValidInstallation` is left out. It checks that the file can be read, and then defers to `AbstractSREInstall`, which is not part of this model.
- Opening the JAR and reading its manifest are a parameter, `Option<Manifest>`. Every failure while reading becomes the single error `ReadFailure`, including a null jar file or a manifest that `getManifest` returns as null.
- Manifest attribute names are matched exactly. `java.util.jar.Attributes` matches them without regard to case.
- `SARLRuntime.fireSREChanged` and `PluginUtil.logErrorMessage` are recorded in `firedEvents` and `errorLog`; listeners and the log are not modelled.
- `PluginUtil.equals` is taken to be null-safe equality, and `PluginUtil.equalsString` to treat `null` as `""`. Their source is not part of this model. The assumption decides three things. It decides whether `setJarFile` marks the install dirty and fires its event (lines 110-118). It decides whether `resolveDirtyFields` replaces the stored VM and program arguments and fires their events (lines 204-212 and 219-227). It decides whether `getAsXML` writes the `name` and `mainClass` attributes (lines 281-287).
- `AbstractSREInstall` is not part of this model. Its setters (`setName`, `setMainClass`, version bounds, `setLibraryLocations`, `setVMSpecificAttributesMap`, `setDirty`) are plain assignments here; any events or dirty marking they do themselves are not modelled. Its getters (`getMainClass`, `getName` as `super.getName()`, `getLibraryLocations`, the version bounds) are plain field reads here, and nothing in the model reads the `dirty` flag. Its initial values are assumed to be `null`, empty and notification on.
- Java `assert` statements are taken to be disabled, as in a deployed plugin. A null jar file in `resolveDirtyFields` therefore fails inside the `try` and becomes an `SREException`.
- Versions.ParseVersion: the OSGi grammar is `major(.minor(.micro(.qualifier)?)?)?` without the surrounding whitespace OSGi trims and without the leading sign (`+` or `-`) and the non-ASCII Unicode decimal digits that `Integer.parseInt` accepts. With the sign, `SARL-Spec-Version: -0.1` would give the range 0.1.0 to 0.2.0 (`Integer.parseInt("-0")` is 0); here it gives no range. `ParseNumber` accepts only `0`-`9`.
- Paths.FromPortableString: the Eclipse path grammar is reduced to a leading `/` and `/`-separated segments. Devices, escapes, `.` and `..` segments and trailing separators are not modelled. Eclipse drops `.` segments when it canonicalises a path; here a `.` stays a segment, and `Paths.RemoveFileExtension` can leave a last segment `.` (from `..jar`, say). Because of this reduction, `Path.fromPortableString` never fails and the unparseable branch of `parsePath` is unreachable.
- SreInstall.Location: `IPath.toOSString` is taken on a host whose separator is `/` and whose paths have no device (`Paths.ToOsString` is the portable form). On Windows the source writes `\` separators and a device letter.
- SreInstall.ParseUrl: `new URL` is reduced to a non-empty protocol before the first `:`; protocol handlers are not consulted.
- FormalParameterOrdering.CompareParameters: type identifiers are taken to be non-null (a `TypeReference` always holds a string). In the source, `compareTo` at line 95 throws a `NullPointerException` when either identifier is null, except that one shared type reference compares 0 through the `t1 != t2` test; `JvmTypeReference.getIdentifier` is not part of this model.
- `String.equalsIgnoreCase` folds only ASCII letters.
- `String.compareTo` compares UTF-16 code units. Here strings are sequences of Dafny characters, so the two differ only for characters outside the Basic Multilingual Plane.
- SreInstall.AsXmlAttributes writes no `name` or `mainClass` attribute when that value is null. The source calls `setAttribute` with `null` there, and what the DOM then does is not modelled.
- The exceptions that `setFromXML` catches and turns into its `IOException` cannot arise in the model once the library path is non-empty.
- The inheritance-context and redundancy traversal that the tests call (`Jdt2Ecore`) is not part of this model.

## Findings

| source | as written | input that shows it | evidently intended | confidence | as-written member | corrected member |
|---|---|---|---|---|---|---|
| plugins/io.sarl.eclipse/src/io/sarl/eclipse/launch/sre/StandardSREInstall.java:288-300 | `getAsXML` creates a `libraryLocation` element for each library location and sets its attributes, but never appends it to `element` | an install with jar `/opt/sre.jar` and library locations `/opt/sre.jar` and `/opt/extra.jar`: the written element has no children, so `setFromXML` on it restores no library location | each element is appended to `element` (`appendChild`), so that `setFromXML` (lines 321-354) reads the locations back | medium; not executed | SreInstall.AsXmlAsWritten, SreInstallProperties.AsWrittenDropsLibraryLocations, SreInstallProperties.AsWrittenLosesTwoLibraries | SreInstall.AsXml, SreInstallProperties.XmlRoundTripLibraries |

=== FILE: java_lang.dfy ===
/**
 * The parts of `java.lang` the model relies on: the 32-bit integer bounds,
 * `Integer.compare` and `String.compareTo`.
 */
module JavaLang {

  /** `Integer.MIN_VALUE` */
  const IntMin: int := -0x8000_0000
  /** `Integer.MAX_VALUE` */
  const IntMax: int := 0x7FFF_FFFF

  /** The sign of a comparison result, as `Integer.signum` gives it. */
  function Sign(x: int): (r: int)
    ensures r == -1 || r == 0 || r == 1
    ensures (r < 0 <==> x < 0) && (r > 0 <==> x > 0)
  {
    if x < 0 then -1 else if x > 0 then 1 else 0
  }

  /** `Integer.compare(x, y)`: -1, 0 or 1 as `x` is below, equal to or above `y`. */
  function IntegerCompare(x: int, y: int): (r: int)
    ensures r == Sign(x - y)
  {
    if x < y then -1 else if x == y then 0 else 1
  }

  /**
   * `String.compareTo`: the difference of the first pair of differing
   * characters, or else the difference of the lengths.
   */
  function CompareTo(s: string, t: string): int
    decreases |s|
  {
    if s == [] || t == [] then |s| - |t|
    else if s[0] != t[0] then s[0] as int - t[0] as int
    else CompareTo(s[1..], t[1..])
  }

  /** `compareTo` is zero exactly on equal strings. */
  lemma {:induction false} CompareToZeroIffEqual(s: string, t: string)
    ensures CompareTo(s, t) == 0 <==> s == t
    decreases |s|
  {
    if s != [] && t != [] && s[0] == t[0] {
      CompareToZeroIffEqual(s[1..], t[1..]);
      assert s == [s[0]] + s[1..] && t == [t[0]] + t[1..];
    }
  }

  /** Swapping the operands negates the result exactly. */
  lemma {:induction false} CompareToAntisymmetric(s: string, t: string)
    ensures CompareTo(t, s) == -CompareTo(s, t)
    decreases |s|
  {
    if s != [] && t != [] && s[0] == t[0] {
      CompareToAntisymmetric(s[1..], t[1..]);
    }
  }

  /** `compareTo` orders strings transitively. */
  lemma {:induction false} CompareToTransitive(a: string, b: string, c: string)
    requires CompareTo(a, b) > 0 && CompareTo(b, c) > 0
    ensures CompareTo(a, c) > 0
    decreases |a|
  {
    if a != [] && b != [] && c != [] && a[0] == b[0] && b[0] == c[0] {
      CompareToTransitive(a[1..], b[1..], c[1..]);
    }
  }
}

=== FILE: options.dfy ===
/** Optional values: `None` stands for a Java `null` reference. */
module Options {

  datatype Option<+T> = None | Some(value: T)
}

=== FILE: parameter_ordering.dfy ===
/**
 * The ordering of formal-parameter lists used to key action signatures
 * (`FormalParameterListComparator`).
 *
 * A list, and each parameter in it, may be `null`. A `null` list sorts
 * before every other list, shorter lists come before longer ones, and lists
 * of equal length are ordered by the first position whose parameters differ
 * in their type identifier. Parameter names, default values and the varargs
 * flag play no part.
 *
 * Java compares the operands by reference first (`a == b`, `p1 != p2`,
 * `t1 != t2`); here the operands are values and those tests are value
 * equality. With type identifiers that are never `null`, as here, that
 * changes no result: value-equal operands also compare 0 through the
 * structural branches (ParametersByKey, ListsByKeys). A `null` identifier,
 * on which `compareTo` throws unless both sides share one reference, is not
 * modelled.
 */
module FormalParameterOrdering {
  import opened Options
  import opened JavaLang

  /** A `JvmTypeReference`, of which only the identifier is compared. */
  datatype TypeReference = TypeReference(identifier: string)

  /** A `FormalParameter`; its type reference may be `null`. */
  datatype FormalParameter = FormalParameter(
    name: string,
    parameterType: Option<TypeReference>,
    defaultValue: Option<string>,
    varArg: bool)

  /** An element of the `EList`, which may be `null`. */
  type Parameter = Option<FormalParameter>

  /** An `EList<FormalParameter>` reference, which may be `null`. */
  type ParameterList = Option<seq<Parameter>>

  // ---------------------------------------------------------------------
  // The comparator as the source writes it
  // ---------------------------------------------------------------------

  /** `compare(FormalParameter, FormalParameter)` */
  function CompareParameters(p1: Parameter, p2: Parameter): (r: int)
    ensures p1.None? && p2.Some? ==> r == IntMin
    ensures p1.Some? && p2.None? ==> r == IntMax
    ensures p1.Some? && p2.Some? ==>
      var t1, t2 := p1.value.parameterType, p2.value.parameterType;
      && (t1.None? && t2.Some? ==> r == IntMin)
      && (t1.Some? && t2.None? ==> r == IntMax)
      && (t1.Some? && t2.Some? ==> r == CompareTo(t1.value.identifier, t2.value.identifier))
    ensures r == 0 <==> KeyOf(p1) == KeyOf(p2)
  {
    if p1 != p2 then
      if p1.None? then IntMin
      else if p2.None? then IntMax
      else
        var t1, t2 := p1.value.parameterType, p2.value.parameterType;
        CompareToZeroIffEqual(if t1.Some? then t1.value.identifier else "",
                              if t2.Some? then t2.value.identifier else "");
        if t1 != t2 then
          var cmp :=
            if t1.None? then IntMin
            else if t2.None? then IntMax
            else CompareTo(t1.value.identifier, t2.value.identifier);
          if cmp != 0 then cmp else 0
        else 0
    else
      var id := if KeyOf(p1).TypedParameter? then KeyOf(p1).identifier else "";
      CompareToZeroIffEqual(id, id);
      0
  }

  /**
   * The value of the loop in `compare(EList, EList)` once the sizes are
   * equal: the comparison at the first position `i` or later whose
   * parameters compare non-zero, or 0 when there is none.
   */
  function FirstDifference(xs: seq<Parameter>, ys: seq<Parameter>, i: nat): int
    requires |xs| == |ys| && i <= |xs|
    decreases |xs| - i
  {
    if i == |xs| then 0
    else
      var cmp := CompareParameters(xs[i], ys[i]);
      if cmp != 0 then cmp else FirstDifference(xs, ys, i + 1)
  }

  /** `compare(EList, EList)`, stated as a function. */
  function ListComparison(a: ParameterList, b: ParameterList): (r: int)
    ensures a == b ==> r == 0
    ensures a.None? && b.Some? ==> r == IntMin
    ensures a.Some? && b.None? ==> r == IntMax
    ensures a.Some? && b.Some? && |a.value| < |b.value| ==> r == -1
    ensures a.Some? && b.Some? && |a.value| > |b.value| ==> r == 1
  {
    if a == b then 0
    else if a.None? then IntMin
    else if b.None? then IntMax
    else
      var cmp := IntegerCompare(|a.value|, |b.value|);
      if cmp == 0 then FirstDifference(a.value, b.value, 0) else cmp
  }

  /** `compare(EList, EList)`, walking both lists with one cursor as the iterators do. */
  method Compare(a: ParameterList, b: ParameterList) returns (cmp: int)
    ensures cmp == ListComparison(a, b)
  {
    if a == b {
      return 0;
    }
    if a.None? {
      return IntMin;
    }
    if b.None? {
      return IntMax;
    }
    var xs, ys := a.value, b.value;
    cmp := IntegerCompare(|xs|, |ys|);
    if cmp == 0 {
      var i := 0;
      while cmp == 0 && i < |xs| && i < |ys|
        invariant |xs| == |ys| && 0 <= i <= |xs|
        invariant cmp == 0 ==> FirstDifference(xs, ys, 0) == FirstDifference(xs, ys, i)
        invariant cmp != 0 ==> cmp == FirstDifference(xs, ys, 0)
        decreases |xs| - i
      {
        cmp := CompareParameters(xs[i], ys[i]);
        i := i + 1;
      }
    }
  }

  // ---------------------------------------------------------------------
  // A reference order on what the comparator looks at
  // ---------------------------------------------------------------------

  /** The only part of a parameter the comparator looks at. */
  datatype Key = NullParameter | UntypedParameter | TypedParameter(identifier: string)

  function KeyOf(p: Parameter): Key {
    if p.None? then NullParameter
    else if p.value.parameterType.None? then UntypedParameter
    else TypedParameter(p.value.parameterType.value.identifier)
  }

  function KeysOf(xs: seq<Parameter>): (ks: seq<Key>)
    ensures |ks| == |xs|
    ensures forall i :: 0 <= i < |xs| ==> ks[i] == KeyOf(xs[i])
  {
    seq(|xs|, i requires 0 <= i < |xs| => KeyOf(xs[i]))
  }

  function Rank(k: Key): nat {
    match k
    case NullParameter => 0
    case UntypedParameter => 1
    case TypedParameter(_) => 2
  }

  /**
   * Reference order on keys: a `null` parameter, then an untyped one, then
   * typed ones by `String.compareTo` of their identifiers; crossing ranks
   * yields the `Integer` extremes.
   */
  function CompareKeys(k1: Key, k2: Key): int {
    if k1.TypedParameter? && k2.TypedParameter? then CompareTo(k1.identifier, k2.identifier)
    else if Rank(k1) < Rank(k2) then IntMin
    else if Rank(k1) > Rank(k2) then IntMax
    else 0
  }

  /** Reference lexicographic order on equally long key sequences. */
  function Lexicographic(xs: seq<Key>, ys: seq<Key>): int
    requires |xs| == |ys|
  {
    if xs == [] then 0
    else
      var cmp := CompareKeys(xs[0], ys[0]);
      if cmp != 0 then cmp else Lexicographic(xs[1..], ys[1..])
  }

  /** Reference order on (possibly `null`) key lists: null first, then by size, then lexicographically. */
  function KeyListOrder(a: Option<seq<Key>>, b: Option<seq<Key>>): int {
    if a.None? && b.None? then 0
    else if a.None? then IntMin
    else if b.None? then IntMax
    else if |a.value| != |b.value| then IntegerCompare(|a.value|, |b.value|)
    else Lexicographic(a.value, b.value)
  }

  function ListKeys(a: ParameterList): Option<seq<Key>> {
    if a.None? then None else Some(KeysOf(a.value))
  }

  // ---------------------------------------------------------------------
  // The comparator agrees with the reference order
  // ---------------------------------------------------------------------

  /** The element comparison depends on the parameters' keys alone: names, default values and varargs flags are ignored. */
  lemma ParametersByKey(p1: Parameter, p2: Parameter)
    ensures CompareParameters(p1, p2) == CompareKeys(KeyOf(p1), KeyOf(p2))
  {
  }

  lemma {:induction false} FirstDifferenceByKeys(xs: seq<Parameter>, ys: seq<Parameter>, i: nat)
    requires |xs| == |ys| && i <= |xs|
    ensures FirstDifference(xs, ys, i) == Lexicographic(KeysOf(xs)[i..], KeysOf(ys)[i..])
    decreases |xs| - i
  {
    if i < |xs| {
      ParametersByKey(xs[i], ys[i]);
      FirstDifferenceByKeys(xs, ys, i + 1);
      assert KeysOf(xs)[i..][1..] == KeysOf(xs)[i + 1..];
      assert KeysOf(ys)[i..][1..] == KeysOf(ys)[i + 1..];
    }
  }

  /**
   * The list comparison depends on the lists' keys alone, and the identity
   * shortcut `a == b` changes no result.
   */
  lemma ListsByKeys(a: ParameterList, b: ParameterList)
    ensures ListComparison(a, b) == KeyListOrder(ListKeys(a), ListKeys(b))
  {
    if a.Some? && b.Some? && |a.value| == |b.value| {
      FirstDifferenceByKeys(a.value, b.value, 0);
      assert KeysOf(a.value)[0..] == KeysOf(a.value);
      assert KeysOf(b.value)[0..] == KeysOf(b.value);
      if a == b {
        LexicographicReflexive(KeysOf(a.value));
      }
    }
  }

  // ---------------------------------------------------------------------
  // Properties of the comparator
  // ---------------------------------------------------------------------

  /** With equal sizes, the first position whose parameters compare non-zero decides. */
  lemma {:induction false} FirstDifferenceDecides(xs: seq<Parameter>, ys: seq<Parameter>, i: nat, k: nat)
    requires |xs| == |ys| && i <= k < |xs|
    requires forall j :: i <= j < k ==> CompareParameters(xs[j], ys[j]) == 0
    requires CompareParameters(xs[k], ys[k]) != 0
    ensures FirstDifference(xs, ys, i) == CompareParameters(xs[k], ys[k])
    decreases k - i
  {
    if i < k {
      FirstDifferenceDecides(xs, ys, i + 1, k);
    }
  }

  /**
   * Two non-null lists of equal size compare as their parameters at the
   * first position whose parameters compare non-zero.
   */
  lemma ListComparisonFirstDifference(a: ParameterList, b: ParameterList, k: nat)
    requires a.Some? && b.Some? && |a.value| == |b.value| && k < |a.value|
    requires forall j :: 0 <= j < k ==> CompareParameters(a.value[j], b.value[j]) == 0
    requires CompareParameters(a.value[k], b.value[k]) != 0
    ensures ListComparison(a, b) == CompareParameters(a.value[k], b.value[k])
  {
    FirstDifferenceDecides(a.value, b.value, 0, k);
  }

  /** With equal sizes, the result is 0 exactly when every position compares 0. */
  lemma {:induction false} FirstDifferenceZero(xs: seq<Parameter>, ys: seq<Parameter>, i: nat)
    requires |xs| == |ys| && i <= |xs|
    ensures FirstDifference(xs, ys, i) == 0 <==>
            forall j :: i <= j < |xs| ==> CompareParameters(xs[j], ys[j]) == 0
    decreases |xs| - i
  {
    if i < |xs| {
      FirstDifferenceZero(xs, ys, i + 1);
    }
  }

  /** Two non-null lists compare 0 exactly when they have the same size and the same key at every position. */
  lemma ListComparisonZero(a: ParameterList, b: ParameterList)
    requires a.Some? && b.Some?
    ensures ListComparison(a, b) == 0 <==> KeysOf(a.value) == KeysOf(b.value)
  {
    if |a.value| == |b.value| {
      FirstDifferenceZero(a.value, b.value, 0);
      if a != b && KeysOf(a.value) != KeysOf(b.value) {
        var j :| 0 <= j < |a.value| && KeysOf(a.value)[j] != KeysOf(b.value)[j];
        assert CompareParameters(a.value[j], b.value[j]) != 0;
      }
    }
  }

  lemma {:induction false} LexicographicReflexive(xs: seq<Key>)
    ensures Lexicographic(xs, xs) == 0
  {
    if xs != [] {
      if xs[0].TypedParameter? {
        CompareToZeroIffEqual(xs[0].identifier, xs[0].identifier);
      }
      LexicographicReflexive(xs[1..]);
    }
  }

  lemma KeysAntisymmetric(k1: Key, k2: Key)
    ensures Sign(CompareKeys(k1, k2)) == -Sign(CompareKeys(k2, k1))
  {
    if k1.TypedParameter? && k2.TypedParameter? {
      CompareToAntisymmetric(k1.identifier, k2.identifier);
    }
  }

  lemma KeysZero(k1: Key, k2: Key)
    ensures CompareKeys(k1, k2) == 0 <==> k1 == k2
  {
    if k1.TypedParameter? && k2.TypedParameter? {
      CompareToZeroIffEqual(k1.identifier, k2.identifier);
    }
  }

  lemma KeysTransitive(k1: Key, k2: Key, k3: Key)
    requires CompareKeys(k1, k2) > 0 && CompareKeys(k2, k3) > 0
    ensures CompareKeys(k1, k3) > 0
  {
    if k1.TypedParameter? && k2.TypedParameter? && k3.TypedParameter? {
      CompareToTransitive(k1.identifier, k2.identifier, k3.identifier);
    }
  }

  lemma {:induction false} LexicographicAntisymmetric(xs: seq<Key>, ys: seq<Key>)
    requires |xs| == |ys|
    ensures Sign(Lexicographic(xs, ys)) == -Sign(Lexicographic(ys, xs))
  {
    if xs != [] {
      KeysAntisymmetric(xs[0], ys[0]);
      LexicographicAntisymmetric(xs[1..], ys[1..]);
    }
  }

  lemma {:induction false} LexicographicZero(xs: seq<Key>, ys: seq<Key>)
    requires |xs| == |ys|
    ensures Lexicographic(xs, ys) == 0 <==> xs == ys
  {
    if xs != [] {
      KeysZero(xs[0], ys[0]);
      LexicographicZero(xs[1..], ys[1..]);
      assert xs == [xs[0]] + xs[1..] && ys == [ys[0]] + ys[1..];
    }
  }

  lemma {:induction false} LexicographicTransitive(xs: seq<Key>, ys: seq<Key>, zs: seq<Key>)
    requires |xs| == |ys| == |zs|
    requires Lexicographic(xs, ys) > 0 && Lexicographic(ys, zs) > 0
    ensures Lexicographic(xs, zs) > 0
  {
    var c1, c2 := CompareKeys(xs[0], ys[0]), CompareKeys(ys[0], zs[0]);
    KeysZero(xs[0], ys[0]);
    KeysZero(ys[0], zs[0]);
    if c1 != 0 && c2 != 0 {
      KeysTransitive(xs[0], ys[0], zs[0]);
    } else if c1 == 0 && c2 == 0 {
      LexicographicTransitive(xs[1..], ys[1..], zs[1..]);
    }
  }

  /** Sign antisymmetry of the element comparison, as a `Comparator` requires. */
  lemma ParametersAntisymmetric(p1: Parameter, p2: Parameter)
    ensures Sign(CompareParameters(p1, p2)) == -Sign(CompareParameters(p2, p1))
  {
    ParametersByKey(p1, p2);
    ParametersByKey(p2, p1);
    KeysAntisymmetric(KeyOf(p1), KeyOf(p2));
  }

  /** Transitivity of the element comparison, as a `Comparator` requires. */
  lemma ParametersTransitive(p1: Parameter, p2: Parameter, p3: Parameter)
    requires CompareParameters(p1, p2) > 0 && CompareParameters(p2, p3) > 0
    ensures CompareParameters(p1, p3) > 0
  {
    ParametersByKey(p1, p2);
    ParametersByKey(p2, p3);
    ParametersByKey(p1, p3);
    KeysTransitive(KeyOf(p1), KeyOf(p2), KeyOf(p3));
  }

  /** Sign antisymmetry of the list comparison, as a `Comparator` requires. */
  lemma ListsAntisymmetric(a: ParameterList, b: ParameterList)
    ensures Sign(ListComparison(a, b)) == -Sign(ListComparison(b, a))
  {
    ListsByKeys(a, b);
    ListsByKeys(b, a);
    var ka, kb := ListKeys(a), ListKeys(b);
    if ka.Some? && kb.Some? && |ka.value| == |kb.value| {
      LexicographicAntisymmetric(ka.value, kb.value);
    }
  }

  /** Transitivity of the list comparison, as a `Comparator` requires. */
  lemma ListsTransitive(a: ParameterList, b: ParameterList, c: ParameterList)
    requires ListComparison(a, b) > 0 && ListComparison(b, c) > 0
    ensures ListComparison(a, c) > 0
  {
    ListsByKeys(a, b);
    ListsByKeys(b, c);
    ListsByKeys(a, c);
    var ka, kb, kc := ListKeys(a), ListKeys(b), ListKeys(c);
    if ka.Some? && kb.Some? && kc.Some? && |ka.value| == |kb.value| == |kc.value| {
      LexicographicTransitive(ka.value, kb.value, kc.value);
    }
  }

  /** Lists that compare 0 compare alike with every third list, as a `Comparator` requires. */
  lemma ListsZeroCongruent(a: ParameterList, b: ParameterList, c: ParameterList)
    requires ListComparison(a, b) == 0
    ensures ListComparison(a, c) == ListComparison(b, c)
  {
    ListsByKeys(a, b);
    ListsByKeys(a, c);
    ListsByKeys(b, c);
    var ka, kb := ListKeys(a), ListKeys(b);
    if ka.Some? && kb.Some? && |ka.value| == |kb.value| {
      LexicographicZero(ka.value, kb.value);
    }
  }
}

=== FILE: paths.dfy ===
/**
 * Eclipse's `IPath`, reduced to what the SRE install uses: a path is an
 * absolute flag and a sequence of segments, written in the portable form
 * with `/` between segments.
 */
module Paths {
  import opened Options
  import opened Strings

  datatype Path = Path(absolute: bool, segments: seq<string>)

  /** `Path.EMPTY` */
  const EmptyPath := Path(false, [])

  predicate ValidSegment(segment: string) {
    segment != "" && '/' !in segment
  }

  /** Every segment is non-empty and free of separators. */
  predicate ValidPath(p: Path) {
    forall i :: 0 <= i < |p.segments| ==> ValidSegment(p.segments[i])
  }

  /** `IPath.toPortableString()` */
  function ToPortableString(p: Path): string {
    (if p.absolute then "/" else "") + Join(p.segments, '/')
  }

  /** `IPath.toOSString()` on a host whose separator is `/`. */
  function ToOsString(p: Path): string {
    ToPortableString(p)
  }

  /**
   * `Path.fromPortableString`: a leading `/` makes the path absolute, and
   * the segments are the non-empty pieces between separators.
   */
  function FromPortableString(s: string): (p: Path)
    ensures ValidPath(p)
  {
    Path(|s| > 0 && s[0] == '/', NonEmpty(Split(s, '/')))
  }

  /** Parsing the portable form gives the path back. */
  lemma PortableRoundTrip(p: Path)
    requires ValidPath(p)
    ensures FromPortableString(ToPortableString(p)) == p
  {
    var joined := Join(p.segments, '/');
    var parts := if p.segments == [] then [""] else p.segments;
    assert Join(parts, '/') == joined;
    SplitJoin(parts, '/');
    NonEmptyKeepsNonEmpty(p.segments);
    if p.absolute {
      var s := "/" + joined;
      assert IndexOf(s, '/') == 0;
      assert s[1..] == joined;
      assert Split(s, '/') == [""] + parts;
      assert NonEmpty([""] + parts) == NonEmpty(parts);
    } else if p.segments != [] {
      assert ValidSegment(p.segments[0]);
      assert joined[0] == p.segments[0][0];
      assert ToPortableString(p) == joined;
    }
  }

  /** `IPath.lastSegment()`: `null` when there are no segments. */
  function LastSegment(p: Path): Option<string> {
    if p.segments == [] then None else Some(p.segments[|p.segments| - 1])
  }

  /** `IPath.getFileExtension()`: the text after the last `.` of the last segment. */
  function FileExtension(p: Path): Option<string> {
    match LastSegment(p)
    case None => None
    case Some(last) =>
      var dot := LastIndexOf(last, '.');
      if dot < 0 then None else Some(last[dot + 1..])
  }

  /**
   * `IPath.removeFileExtension()`: a path without a (non-empty) extension
   * is unchanged; otherwise the last segment loses its last `.` and what
   * follows, and an empty remainder is dropped, as appending an empty
   * string to a path adds no segment.
   */
  function RemoveFileExtension(p: Path): (r: Path)
    ensures ValidPath(p) ==> ValidPath(r)
    ensures r.absolute == p.absolute
  {
    match FileExtension(p)
    case None => p
    case Some(extension) =>
      if extension == "" then p
      else
        var n := |p.segments|;
        var last := p.segments[n - 1];
        var stem := last[..LastIndexOf(last, '.')];
        assert ValidPath(p) ==> '/' !in stem by {
          if ValidPath(p) {
            assert ValidSegment(last);
            forall k | 0 <= k < |stem| ensures stem[k] != '/' {
              assert stem[k] == last[k];
            }
          }
        }
        Path(p.absolute, p.segments[..n - 1] + (if stem == "" then [] else [stem]))
  }

  /** A file named `stem.ext` loses exactly `.ext`. */
  lemma StemOfFileName(p: Path, stem: string, extension: string)
    requires p.segments != [] && p.segments[|p.segments| - 1] == stem + "." + extension
    requires stem != "" && extension != "" && '.' !in extension
    ensures LastSegment(RemoveFileExtension(p)) == Some(stem)
  {
    var last := stem + "." + extension;
    var dot := LastIndexOf(last, '.');
    assert last[|stem|] == '.';
    assert dot == |stem|;
    assert last[dot + 1..] == extension;
    assert last[..dot] == stem;
  }
}

=== FILE: sre_install.dfy ===
/**
 * A standard SARL Runtime Environment (SRE) install (`StandardSREInstall`):
 * one JAR file whose manifest names the main class and, in the section
 * `SARL-Runtime-Environment`, the supported SARL specification version,
 * the SRE name and its VM and program arguments.
 *
 * The install's settings are a record, `InstallState`; each operation of the
 * source is a function from the old record to the new one (`WithJarFile`,
 * `Resolve`, `FromXml`) or to what it returns (`Name`, `Location`,
 * `ProgramArguments`, `AsXml`). The class `StandardSreInstall` holds the same
 * settings as fields and performs the updates in place, each method proved to
 * match its function.
 *
 * Reading the JAR is a parameter (the manifest, or `None` when the JAR
 * cannot be opened or has no manifest). Change events sent to listeners and
 * messages written to the error log are recorded in the state.
 */
module SreInstall {
  import opened Options
  import opened JavaLang
  import opened Strings
  import opened Paths
  import opened Versions
  import opened Xml

  // ---------------------------------------------------------------------
  // Data
  // ---------------------------------------------------------------------

  /** A `java.net.URL`, as its protocol and the text after the first `:`. */
  datatype Url = Url(protocol: string, rest: string)

  /** A `LibraryLocation` of the JDT launching API. */
  datatype LibraryLocation = LibraryLocation(
    systemLibraryPath: Path,
    sourcePath: Path,
    packageRootPath: Path,
    javadoc: Option<Url>)

  /** A JAR manifest: the main attributes and the named sections. */
  datatype Manifest = Manifest(mainAttributes: map<string, string>, sections: map<string, map<string, string>>)

  /** The properties whose change is announced to the SRE listeners. */
  datatype Property = JarFileProperty | VmArgumentsProperty | ProgramArgumentsProperty

  datatype PropertyValue = PathValue(path: Option<Path>) | TextValue(text: string)

  /** A `PropertyChangeEvent` passed to `SARLRuntime.fireSREChanged`. */
  datatype ChangeEvent = ChangeEvent(property: Property, oldValue: PropertyValue, newValue: PropertyValue)

  /** The causes of an `SREException` raised while reading the manifest. */
  datatype SreError =
    | ReadFailure         // the JAR or its manifest cannot be read
    | InvalidMainClass    // `Main-Class` missing or empty
    | MissingSarlSection  // no `SARL-Runtime-Environment` section

  /**
   * The settings of an install. The first group is inherited from
   * `AbstractSREInstall`, the second is declared by `StandardSREInstall`,
   * the last records what was sent to listeners and to the error log.
   * `None` stands for `null`.
   */
  datatype InstallState = InstallState(
    id: string,
    name: Option<string>,
    mainClass: Option<string>,
    minimalSarlVersion: Option<string>,
    maximalSarlVersion: Option<string>,
    libraryLocations: seq<LibraryLocation>,
    vmSpecificAttributes: Option<map<string, string>>,
    dirty: bool,
    notify: bool,
    jarFile: Option<Path>,
    vmArguments: string,
    programArguments: string,
    manifestMainClass: Option<string>,
    manifestName: Option<string>,
    firedEvents: seq<ChangeEvent>,
    errorLog: seq<string>)

  datatype Resolution = Resolution(state: InstallState, error: Option<SreError>)

  /** The new state after `setFromXML`, and whether it returned normally (`false`: `IOException`). */
  datatype XmlResult = XmlResult(state: InstallState, ok: bool)

  const MainClassKey := "Main-Class"
  const SarlSectionKey := "SARL-Runtime-Environment"
  const SpecVersionKey := "SARL-Spec-Version"
  const SreNameKey := "SRE-Name"
  const VmArgumentsKey := "VM-Arguments"
  const ProgramArgumentsKey := "Program-Arguments"

  const LibraryPathAttribute := "libraryPath"
  const NameAttribute := "name"
  const MainClassAttribute := "mainClass"
  const LibraryLocationTag := "libraryLocation"
  const SystemLibraryPathAttribute := "systemLibraryPath"
  const PackageRootPathAttribute := "packageRootPath"
  const SourcePathAttribute := "sourcePath"
  const JavadocAttribute := "javadoc"

  function InvalidXmlMessage(id: string): string {
    "Invalid XML format for the SRE " + id
  }

  // ---------------------------------------------------------------------
  // Helpers
  // ---------------------------------------------------------------------

  /** `s == null || s.isEmpty()` */
  predicate IsEmpty(s: Option<string>) {
    s.None? || s.value == ""
  }

  /** `null` becomes the empty string. */
  function Unnullify(s: Option<string>): (r: string)
    ensures s.None? ==> r == ""
    ensures s.Some? ==> r == s.value
    ensures IsEmpty(s) <==> r == ""
  {
    if s.None? then "" else s.value
  }

  /** `PluginUtil.equalsString`, taken to identify `null` with the empty string. */
  predicate EqualsString(a: Option<string>, b: Option<string>) {
    Unnullify(a) == Unnullify(b)
  }

  /** The value of a manifest attribute, `null` when absent. */
  function GetValue(attributes: map<string, string>, key: string): Option<string> {
    if key in attributes then Some(attributes[key]) else None
  }

  /** A manifest-derived setting replaces the current one only when forced or when the current one is empty. */
  function Overwrite(force: bool, current: Option<string>, derived: Option<string>): (r: Option<string>)
    ensures force || IsEmpty(current) ==> r == derived
    ensures !force && !IsEmpty(current) ==> r == current
  {
    if force || IsEmpty(current) then derived else current
  }

  /** `new URL(text)`: a non-empty protocol before the first `:`. */
  function ParseUrl(text: string): (r: Option<Url>)
    ensures r.Some? ==> r.value.protocol != "" && ':' !in r.value.protocol
  {
    var n := IndexOf(text, ':');
    if 0 < n < |text| then Some(Url(text[..n], text[n + 1..])) else None
  }

  /** `URL.toString()` */
  function UrlToString(u: Url): string {
    u.protocol + ":" + u.rest
  }

  /** `parsePath(path, defaultPath)`: the default for an empty string, the parsed path otherwise. */
  function ParsePath(text: string, default: Option<Path>): (r: Option<Path>)
    ensures text == "" ==> r == default
    ensures text != "" ==> r == Some(FromPortableString(text))
    ensures default.Some? ==> r.Some?
  {
    if text != "" then Some(FromPortableString(text)) else default
  }

  // ---------------------------------------------------------------------
  // Construction and the jar file
  // ---------------------------------------------------------------------

  /** A new install with the given id: no jar, empty arguments, nothing read from a manifest. */
  function Initial(id: string): InstallState {
    InstallState(id, None, None, None, None, [], None, false, true,
                 None, "", "", None, None, [], [])
  }

  /** `setJarFile`: a new path is stored and marks the install dirty; the change is announced when notification is on. */
  function WithJarFile(s: InstallState, p: Path): (r: InstallState)
    ensures r.jarFile == Some(p)
    ensures s.jarFile == Some(p) ==> r == s
    ensures s.jarFile != Some(p) ==> r.dirty
    ensures s.jarFile != Some(p) ==>
      r.firedEvents == s.firedEvents +
        (if s.notify then [ChangeEvent(JarFileProperty, PathValue(s.jarFile), PathValue(Some(p)))] else [])
    ensures r == s.(jarFile := r.jarFile, dirty := r.dirty, firedEvents := r.firedEvents)
  {
    if s.jarFile == Some(p) then s
    else
      var event := ChangeEvent(JarFileProperty, PathValue(s.jarFile), PathValue(Some(p)));
      s.(jarFile := Some(p), dirty := true,
         firedEvents := if s.notify then s.firedEvents + [event] else s.firedEvents)
  }

  // ---------------------------------------------------------------------
  // Reading settings from the manifest
  // ---------------------------------------------------------------------

  /** The events after an argument string read from the manifest replaced `current`: one more when it differs and notification is on. */
  function ArgumentEvents(s: InstallState, property: Property, current: string, value: Option<string>): seq<ChangeEvent> {
    if !EqualsString(value, Some(current)) && s.notify then
      s.firedEvents + [ChangeEvent(property, TextValue(current), TextValue(Unnullify(value)))]
    else s.firedEvents
  }

  /** The version range read from the section, each bound applied when forced or when the current one is empty. */
  function WithVersionRange(s: InstallState, force: bool, range: VersionRange): InstallState {
    s.(minimalSarlVersion := Overwrite(force, s.minimalSarlVersion, range.minimal),
       maximalSarlVersion := Overwrite(force, s.maximalSarlVersion, range.maximal))
  }

  /** The SRE name read from the section is recorded, and applied when forced or when the current name is empty. */
  function WithSreName(s: InstallState, force: bool, section: map<string, string>): InstallState {
    var manifestName := Unnullify(GetValue(section, SreNameKey));
    s.(manifestName := Some(manifestName),
       name := Overwrite(force, s.name, Some(manifestName)))
  }

  /** The version range and the name read from the section. */
  function WithSectionSettings(s: InstallState, force: bool, section: map<string, string>): InstallState {
    WithSreName(WithVersionRange(s, force, SpecVersionRange(GetValue(section, SpecVersionKey))), force, section)
  }

  /** The VM arguments read from the section replace the stored ones; the VM-specific attributes are cleared. */
  function WithVmArguments(s: InstallState, value: Option<string>): InstallState {
    s.(firedEvents := ArgumentEvents(s, VmArgumentsProperty, s.vmArguments, value),
       vmArguments := Unnullify(value),
       vmSpecificAttributes := None)
  }

  /** The program arguments read from the section replace the stored ones. */
  function WithProgramArguments(s: InstallState, value: Option<string>): InstallState {
    s.(firedEvents := ArgumentEvents(s, ProgramArgumentsProperty, s.programArguments, value),
       programArguments := Unnullify(value))
  }

  /** What `resolveDirtyFields` does once the `SARL-Runtime-Environment` section is found. */
  function ApplySarlSection(s: InstallState, force: bool, section: map<string, string>): InstallState
    requires s.jarFile.Some?
  {
    var s1 := WithSectionSettings(s, force, section);
    var s2 := WithVmArguments(s1, GetValue(section, VmArgumentsKey));
    var s3 := WithProgramArguments(s2, GetValue(section, ProgramArgumentsKey));
    if force then s3.(libraryLocations := [LibraryLocation(s.jarFile.value, EmptyPath, EmptyPath, None)])
    else s3
  }

  /**
   * `resolveDirtyFields(forceSettings)` on the manifest of the jar file.
   * The main class is recorded before it is checked, and the settings
   * changed before an error stay changed.
   */
  function Resolve(s: InstallState, force: bool, jar: Option<Manifest>): (r: Resolution)
    ensures r.error == Some(ReadFailure) <==> s.jarFile.None? || jar.None?
    ensures r.error == Some(InvalidMainClass) <==>
      s.jarFile.Some? && jar.Some? && IsEmpty(GetValue(jar.value.mainAttributes, MainClassKey))
    ensures r.error == Some(MissingSarlSection) <==>
      && s.jarFile.Some? && jar.Some? && !IsEmpty(GetValue(jar.value.mainAttributes, MainClassKey))
      && SarlSectionKey !in jar.value.sections
    ensures r.error == Some(ReadFailure) ==> r.state == s
    ensures r.error == Some(InvalidMainClass) ==>
      r.state == s.(manifestMainClass := GetValue(jar.value.mainAttributes, MainClassKey))
    ensures r.error.None? || r.error == Some(MissingSarlSection) ==>
      r.state.manifestMainClass == GetValue(jar.value.mainAttributes, MainClassKey) &&
      r.state.mainClass == Overwrite(force, s.mainClass, r.state.manifestMainClass)
    ensures r.error == Some(MissingSarlSection) ==>
      r.state == s.(manifestMainClass := r.state.manifestMainClass, mainClass := r.state.mainClass)
    ensures r.state.id == s.id && r.state.jarFile == s.jarFile && r.state.notify == s.notify && r.state.dirty == s.dirty
  {
    if s.jarFile.None? || jar.None? then Resolution(s, Some(ReadFailure))
    else
      var manifest := jar.value;
      var mainClass := GetValue(manifest.mainAttributes, MainClassKey);
      var s1 := s.(manifestMainClass := mainClass);
      if IsEmpty(mainClass) then Resolution(s1, Some(InvalidMainClass))
      else
        var s2 := s1.(mainClass := Overwrite(force, s1.mainClass, mainClass));
        if SarlSectionKey !in manifest.sections then Resolution(s2, Some(MissingSarlSection))
        else Resolution(ApplySarlSection(s2, force, manifest.sections[SarlSectionKey]), None)
  }

  // ---------------------------------------------------------------------
  // Queries
  // ---------------------------------------------------------------------

  /** `getName`: the stored name unless empty, else the jar file's name without extension, else the id. */
  function Name(s: InstallState): (n: Option<string>)
    ensures !IsEmpty(s.name) ==> n == s.name
    ensures IsEmpty(s.name) && s.jarFile.Some? ==> n == LastSegment(RemoveFileExtension(s.jarFile.value))
    ensures IsEmpty(s.name) && s.jarFile.None? ==> n == Some(s.id)
  {
    var n := s.name;
    if IsEmpty(n) then
      if s.jarFile.Some? then LastSegment(RemoveFileExtension(s.jarFile.value)) else Some(s.id)
    else n
  }

  /** `getLocation`: the jar file in the host's notation, or the name when there is no jar file. */
  function Location(s: InstallState): (l: Option<string>)
    ensures s.jarFile.Some? ==> l == Some(ToOsString(s.jarFile.value))
    ensures s.jarFile.None? ==> l == Name(s)
  {
    if s.jarFile.None? then Name(s) else Some(ToOsString(s.jarFile.value))
  }

  /** How Java's string concatenation writes a possibly `null` string. */
  function JavaText(s: Option<string>): string {
    if s.None? then "null" else s.value
  }

  /** `getProgramArguments`: the main class, followed by a space and the program arguments when there are some. */
  function ProgramArguments(s: InstallState): (r: Option<string>)
    ensures s.programArguments == "" ==> r == s.mainClass
    ensures s.programArguments != "" ==> r == Some(JavaText(s.mainClass) + " " + s.programArguments)
  {
    if s.programArguments == "" then s.mainClass
    else Some(JavaText(s.mainClass) + " " + s.programArguments)
  }

  // ---------------------------------------------------------------------
  // XML persistence
  // ---------------------------------------------------------------------

  /** The `libraryLocation` element that describes one library location. */
  function LibraryElement(l: LibraryLocation): Element {
    var attributes := map[
      SystemLibraryPathAttribute := ToPortableString(l.systemLibraryPath),
      PackageRootPathAttribute := ToPortableString(l.packageRootPath),
      SourcePathAttribute := ToPortableString(l.sourcePath)];
    Element(LibraryLocationTag,
            if l.javadoc.Some? then attributes[JavadocAttribute := UrlToString(l.javadoc.value)] else attributes,
            [])
  }

  function LibraryNodes(libraries: seq<LibraryLocation>): (nodes: seq<Node>)
    ensures |nodes| == |libraries|
    ensures forall i :: 0 <= i < |libraries| ==> nodes[i] == ElementNode(LibraryElement(libraries[i]))
  {
    seq(|libraries|, i requires 0 <= i < |libraries| => ElementNode(LibraryElement(libraries[i])))
  }

  /** The library locations are written unless they are exactly the jar file itself. */
  predicate LibrariesWritten(s: InstallState) {
    |s.libraryLocations| != 1 || Some(s.libraryLocations[0].systemLibraryPath) != s.jarFile
  }

  /**
   * The attributes `getAsXML` writes into `element`: the jar path, and the
   * name and main class when they differ from the manifest's. `None` when
   * there is no jar file (the source dereferences it).
   */
  function AsXmlAttributes(s: InstallState, element: Element): (r: Option<Element>)
    ensures r.Some? <==> s.jarFile.Some?
    ensures r.Some? ==> r.value.children == element.children && r.value.tagName == element.tagName
  {
    if s.jarFile.None? then None
    else
      var e1 := SetAttribute(element, LibraryPathAttribute, ToPortableString(s.jarFile.value));
      var name := Name(s);
      var e2 := if name.Some? && !EqualsString(name, s.manifestName) then SetAttribute(e1, NameAttribute, name.value) else e1;
      var mainClass := s.mainClass;
      var e3 := if mainClass.Some? && mainClass != s.manifestMainClass then SetAttribute(e2, MainClassAttribute, mainClass.value) else e2;
      Some(e3)
  }

  /**
   * `getAsXML` as written: it builds a `libraryLocation` element per
   * library location but never appends it to `element`, so nothing about
   * the libraries reaches the XML.
   */
  function AsXmlAsWritten(s: InstallState, element: Element): (r: Option<Element>)
    ensures r.Some? ==> r.value.children == element.children
  {
    AsXmlAttributes(s, element)
  }

  /** `getAsXML` with the library elements appended to `element`, as `setFromXML` expects to read them. */
  function AsXml(s: InstallState, element: Element): (r: Option<Element>)
    ensures r.Some? <==> s.jarFile.Some?
    ensures r.Some? && LibrariesWritten(s) ==> r.value.children == element.children + LibraryNodes(s.libraryLocations)
    ensures r.Some? && !LibrariesWritten(s) ==> r.value.children == element.children
    ensures r.Some? ==> r.value.attributes == AsXmlAttributes(s, element).value.attributes
  {
    match AsXmlAttributes(s, element)
    case None => None
    case Some(e) =>
      if LibrariesWritten(s) then Some(e.(children := e.children + LibraryNodes(s.libraryLocations)))
      else Some(e)
  }

  /** The library location a `libraryLocation` element describes; `None` without a system library path. */
  function ReadLibraryLocation(e: Element): (r: Option<LibraryLocation>)
    ensures r.Some? <==> GetAttribute(e, SystemLibraryPathAttribute) != ""
  {
    match ParsePath(GetAttribute(e, SystemLibraryPathAttribute), None)
    case None => None
    case Some(systemLibraryPath) =>
      var packageRootPath := ParsePath(GetAttribute(e, PackageRootPathAttribute), Some(EmptyPath)).value;
      var sourcePath := ParsePath(GetAttribute(e, SourcePathAttribute), Some(EmptyPath)).value;
      Some(LibraryLocation(systemLibraryPath, sourcePath, packageRootPath, ParseUrl(GetAttribute(e, JavadocAttribute))))
  }

  predicate IsLibraryNode(node: Node) {
    node.ElementNode? && EqualsIgnoreCase(LibraryLocationTag, node.element.tagName)
  }

  /** The library locations read so far, and the error messages logged for invalid entries. */
  datatype LocationScan = LocationScan(locations: seq<LibraryLocation>, messages: seq<string>)

  /** One iteration of the loop of `setFromXML` over the child nodes. */
  function ScanStep(scan: LocationScan, node: Node, id: string): LocationScan {
    if IsLibraryNode(node) then
      match ReadLibraryLocation(node.element)
      case Some(l) => scan.(locations := scan.locations + [l])
      case None => scan.(messages := scan.messages + [InvalidXmlMessage(id)])
    else scan
  }

  /** The loop of `setFromXML` over the child nodes `nodes`, in order. */
  function ScanLibraryLocations(nodes: seq<Node>, id: string): LocationScan {
    if nodes == [] then LocationScan([], [])
    else ScanStep(ScanLibraryLocations(nodes[..|nodes| - 1], id), nodes[|nodes| - 1], id)
  }

  /**
   * `setFromXML`: without a library path the install is unchanged and an
   * `IOException` is raised; otherwise the jar file is set, the name and
   * main class are taken when non-empty, and the library locations are
   * replaced when at least one valid entry was read.
   */
  function FromXml(s: InstallState, e: Element): (r: XmlResult)
    ensures r.ok <==> GetAttribute(e, LibraryPathAttribute) != ""
    ensures !r.ok ==> r.state == s
  {
    match ParsePath(GetAttribute(e, LibraryPathAttribute), None)
    case None => XmlResult(s, false)
    case Some(path) =>
      var s1 := WithXmlSettings(s, path, GetAttribute(e, NameAttribute), GetAttribute(e, MainClassAttribute));
      XmlResult(WithLibraryScan(s1, ScanLibraryLocations(e.children, s.id)), true)
  }

  /** The jar file, then the name and the main class when the attributes are non-empty. */
  function WithXmlSettings(s: InstallState, path: Path, name: string, mainClass: string): InstallState {
    var s1 := WithJarFile(s, path);
    var s2 := if name != "" then s1.(name := Some(name)) else s1;
    if mainClass != "" then s2.(mainClass := Some(mainClass)) else s2
  }

  /** The messages of the scan are logged; its locations replace the stored ones unless there are none. */
  function WithLibraryScan(s: InstallState, scan: LocationScan): InstallState {
    var s1 := s.(errorLog := s.errorLog + scan.messages);
    if scan.locations != [] then s1.(libraryLocations := scan.locations) else s1
  }

  // ---------------------------------------------------------------------
  // The install object
  // ---------------------------------------------------------------------

  class StandardSreInstall {
    const id: string
    var name: Option<string>
    var mainClass: Option<string>
    var minimalSarlVersion: Option<string>
    var maximalSarlVersion: Option<string>
    var libraryLocations: seq<LibraryLocation>
    var vmSpecificAttributes: Option<map<string, string>>
    var dirty: bool
    var notify: bool
    var jarFile: Option<Path>
    var vmArguments: string
    var programArguments: string
    var manifestMainClass: Option<string>
    var manifestName: Option<string>
    var firedEvents: seq<ChangeEvent>
    var errorLog: seq<string>

    /** The settings of this install as a value. */
    function State(): InstallState
      reads this
    {
      InstallState(id, name, mainClass, minimalSarlVersion, maximalSarlVersion,
                   libraryLocations, vmSpecificAttributes, dirty, notify,
                   jarFile, vmArguments, programArguments, manifestMainClass, manifestName,
                   firedEvents, errorLog)
    }

    constructor (id: string)
      ensures State() == Initial(id)
    {
      this.id := id;
      name, mainClass, minimalSarlVersion, maximalSarlVersion := None, None, None, None;
      libraryLocations, vmSpecificAttributes, dirty, notify := [], None, false, true;
      jarFile, vmArguments, programArguments := None, "", "";
      manifestMainClass, manifestName := None, None;
      firedEvents, errorLog := [], [];
    }

    /** `setJarFile` */
    method SetJarFile(path: Path)
      modifies this
      ensures State() == WithJarFile(old(State()), path)
    {
      if Some(path) != jarFile {
        var event := ChangeEvent(JarFileProperty, PathValue(jarFile), PathValue(Some(path)));
        jarFile := Some(path);
        dirty := true;
        if notify {
          firedEvents := firedEvents + [event];
        }
      }
    }

    /** The VM arguments read from the manifest replace the stored ones, announcing the change when they differ. */
    method UpdateVmArguments(value: Option<string>)
      modifies this`vmArguments, this`firedEvents, this`vmSpecificAttributes
      ensures State() == WithVmArguments(old(State()), value)
    {
      if !EqualsString(value, Some(vmArguments)) {
        var event := ChangeEvent(VmArgumentsProperty, TextValue(vmArguments), TextValue(Unnullify(value)));
        vmArguments := Unnullify(value);
        if notify {
          firedEvents := firedEvents + [event];
        }
      }
      vmSpecificAttributes := None;
    }

    /** The program arguments read from the manifest replace the stored ones, announcing the change when they differ. */
    method UpdateProgramArguments(value: Option<string>)
      modifies this`programArguments, this`firedEvents
      ensures State() == WithProgramArguments(old(State()), value)
    {
      if !EqualsString(value, Some(programArguments)) {
        var event := ChangeEvent(ProgramArgumentsProperty, TextValue(programArguments), TextValue(Unnullify(value)));
        programArguments := Unnullify(value);
        if notify {
          firedEvents := firedEvents + [event];
        }
      }
    }

    /** `resolveDirtyFields(forceSettings)`, given the manifest of the jar file (`None`: it cannot be read). */
    method ResolveDirtyFields(force: bool, jar: Option<Manifest>) returns (error: Option<SreError>)
      modifies this
      ensures Resolution(State(), error) == Resolve(old(State()), force, jar)
    {
      if jarFile.None? || jar.None? {
        return Some(ReadFailure);
      }
      var manifest := jar.value;
      manifestMainClass := GetValue(manifest.mainAttributes, MainClassKey);
      if IsEmpty(manifestMainClass) {
        return Some(InvalidMainClass);
      }
      if force || IsEmpty(mainClass) {
        mainClass := manifestMainClass;
      }
      if SarlSectionKey !in manifest.sections {
        return Some(MissingSarlSection);
      }
      ApplySection(force, manifest.sections[SarlSectionKey]);
      error := None;
    }

    /** The version range read from the `SARL-Runtime-Environment` section. */
    method ApplyVersionRange(force: bool, range: VersionRange)
      modifies this`minimalSarlVersion, this`maximalSarlVersion
      ensures State() == WithVersionRange(old(State()), force, range)
    {
      if force || IsEmpty(minimalSarlVersion) {
        minimalSarlVersion := range.minimal;
      }
      if force || IsEmpty(maximalSarlVersion) {
        maximalSarlVersion := range.maximal;
      }
    }

    /** The SRE name read from the `SARL-Runtime-Environment` section. */
    method ApplySreName(force: bool, section: map<string, string>)
      modifies this`manifestName, this`name
      ensures State() == WithSreName(old(State()), force, section)
    {
      manifestName := Some(Unnullify(GetValue(section, SreNameKey)));
      if force || IsEmpty(name) {
        name := manifestName;
      }
    }

    /** The part of `resolveDirtyFields` that reads the `SARL-Runtime-Environment` section. */
    method ApplySection(force: bool, section: map<string, string>)
      requires jarFile.Some?
      modifies this
      ensures State() == ApplySarlSection(old(State()), force, section)
    {
      ApplyVersionRange(force, SpecVersionRange(GetValue(section, SpecVersionKey)));
      ApplySreName(force, section);
      UpdateVmArguments(GetValue(section, VmArgumentsKey));
      UpdateProgramArguments(GetValue(section, ProgramArgumentsKey));
      if force {
        libraryLocations := [LibraryLocation(jarFile.value, EmptyPath, EmptyPath, None)];
      }
    }

    /** `setFromXML`; `ok == false` stands for the `IOException` raised without a valid library path. */
    method SetFromXml(element: Element) returns (ok: bool)
      modifies this
      ensures XmlResult(State(), ok) == FromXml(old(State()), element)
    {
      var path := ParsePath(GetAttribute(element, LibraryPathAttribute), None);
      if path.None? {
        return false;
      }
      ApplyXmlSettings(path.value, GetAttribute(element, NameAttribute), GetAttribute(element, MainClassAttribute));
      ReadLibraries(element.children);
      return true;
    }

    /** The part of `setFromXML` that sets the jar file, the name and the main class. */
    method ApplyXmlSettings(path: Path, newName: string, newMainClass: string)
      modifies this
      ensures State() == WithXmlSettings(old(State()), path, newName, newMainClass)
    {
      SetJarFile(path);
      if newName != "" {
        name := Some(newName);
      }
      if newMainClass != "" {
        mainClass := Some(newMainClass);
      }
    }

    /** The part of `setFromXML` that reads the library locations. */
    method ReadLibraries(children: seq<Node>)
      modifies this`errorLog, this`libraryLocations
      ensures State() == WithLibraryScan(old(State()), ScanLibraryLocations(children, id))
    {
      var locations := ReadLibraryLocations(children);
      if locations != [] {
        libraryLocations := locations;
      }
    }

    /** The loop of `setFromXML` over the child nodes, logging an error for each entry without a system library path. */
    method ReadLibraryLocations(children: seq<Node>) returns (locations: seq<LibraryLocation>)
      modifies this`errorLog
      ensures locations == ScanLibraryLocations(children, id).locations
      ensures errorLog == old(errorLog) + ScanLibraryLocations(children, id).messages
    {
      locations := [];
      for i := 0 to |children|
        invariant |old(errorLog)| <= |errorLog| && errorLog[..|old(errorLog)|] == old(errorLog)
        invariant ScanLibraryLocations(children[..i], id) == LocationScan(locations, errorLog[|old(errorLog)|..])
      {
        assert children[..i + 1][..i] == children[..i];
        var node := children[i];
        if node.ElementNode? && EqualsIgnoreCase(LibraryLocationTag, node.element.tagName) {
          var library := ReadLibraryLocation(node.element);
          if library.Some? {
            locations := locations + [library.value];
          } else {
            errorLog := errorLog + [InvalidXmlMessage(id)];
          }
        }
      }
      assert children[..|children|] == children;
    }
  }
}

=== FILE: sre_properties.dfy ===
/**
 * Properties of the SRE install operations: what reading the manifest
 * promises, the name fallback, the command line, reading library entries
 * from XML, and the XML round trip (together with the way `getAsXML`, as
 * written, breaks it).
 */
module SreInstallProperties {
  import opened Options
  import opened JavaLang
  import opened Strings
  import opened Paths
  import opened Versions
  import opened Xml
  import opened SreInstall

  // ---------------------------------------------------------------------
  // setJarFile
  // ---------------------------------------------------------------------

  /** Setting the same jar file twice changes nothing the second time, and announces at most one change. */
  lemma JarFileIdempotent(s: InstallState, p: Path)
    ensures WithJarFile(WithJarFile(s, p), p) == WithJarFile(s, p)
    ensures |WithJarFile(s, p).firedEvents| <= |s.firedEvents| + 1
  {
  }

  // ---------------------------------------------------------------------
  // resolveDirtyFields
  // ---------------------------------------------------------------------

  lemma SectionIdempotent(s: InstallState, force: bool, section: map<string, string>)
    requires s.jarFile.Some?
    ensures ApplySarlSection(s, force, section).jarFile == s.jarFile
    ensures ApplySarlSection(ApplySarlSection(s, force, section), force, section) == ApplySarlSection(s, force, section)
  {
    var r := ApplySarlSection(s, force, section);
    var t1 := WithSectionSettings(r, force, section);
    assert t1 == r;
    var t2 := WithVmArguments(t1, GetValue(section, VmArgumentsKey));
    assert t2 == t1;
    var t3 := WithProgramArguments(t2, GetValue(section, ProgramArgumentsKey));
    assert t3 == t2;
  }

  /**
   * Resolving the settings twice from the same manifest is the same as
   * resolving them once: same settings, same error, no further events.
   */
  lemma ResolveIdempotent(s: InstallState, force: bool, jar: Option<Manifest>)
    ensures Resolve(Resolve(s, force, jar).state, force, jar) == Resolve(s, force, jar)
  {
  }

  /**
   * A forced resolution that succeeds takes every manifest-derived setting
   * from the manifest, whatever the settings were, and resets the library
   * locations to the jar file alone.
   */
  lemma ResolveForced(s: InstallState, jar: Option<Manifest>)
    requires Resolve(s, true, jar).error.None?
    ensures var r := Resolve(s, true, jar).state;
      var section := jar.value.sections[SarlSectionKey];
      var range := SpecVersionRange(GetValue(section, SpecVersionKey));
      && r.mainClass == GetValue(jar.value.mainAttributes, MainClassKey)
      && r.minimalSarlVersion == range.minimal
      && r.maximalSarlVersion == range.maximal
      && r.name == Some(Unnullify(GetValue(section, SreNameKey)))
      && r.vmArguments == Unnullify(GetValue(section, VmArgumentsKey))
      && r.programArguments == Unnullify(GetValue(section, ProgramArgumentsKey))
      && r.vmSpecificAttributes.None?
      && r.libraryLocations == [LibraryLocation(s.jarFile.value, EmptyPath, EmptyPath, None)]
  {
  }

  /**
   * A resolution that succeeds, forced or not, always takes the VM and
   * program arguments from the manifest and clears the VM-specific
   * attributes; each argument string announces its change, VM arguments
   * first, when it differs and notification is on.
   */
  lemma ResolveArguments(s: InstallState, force: bool, jar: Option<Manifest>)
    requires Resolve(s, force, jar).error.None?
    ensures var r := Resolve(s, force, jar).state;
      var section := jar.value.sections[SarlSectionKey];
      var vm, pa := Unnullify(GetValue(section, VmArgumentsKey)), Unnullify(GetValue(section, ProgramArgumentsKey));
      && r.vmArguments == vm
      && r.programArguments == pa
      && r.vmSpecificAttributes.None?
      && r.firedEvents == s.firedEvents
           + (if s.notify && vm != s.vmArguments
              then [ChangeEvent(VmArgumentsProperty, TextValue(s.vmArguments), TextValue(vm))] else [])
           + (if s.notify && pa != s.programArguments
              then [ChangeEvent(ProgramArgumentsProperty, TextValue(s.programArguments), TextValue(pa))] else [])
  {
  }

  /**
   * An unforced resolution never replaces a setting that is already
   * non-empty, and never touches the library locations.
   */
  lemma ResolveKeepsExplicitSettings(s: InstallState, jar: Option<Manifest>)
    ensures var r := Resolve(s, false, jar).state;
      && (!IsEmpty(s.mainClass) ==> r.mainClass == s.mainClass)
      && (!IsEmpty(s.minimalSarlVersion) ==> r.minimalSarlVersion == s.minimalSarlVersion)
      && (!IsEmpty(s.maximalSarlVersion) ==> r.maximalSarlVersion == s.maximalSarlVersion)
      && (!IsEmpty(s.name) ==> r.name == s.name)
      && r.libraryLocations == s.libraryLocations
  {
  }

  /**
   * An unforced resolution that gets past the main-class check fills an
   * empty main class with `Main-Class`; one that succeeds also fills an
   * empty name with the section's `SRE-Name`.
   */
  lemma ResolveFillsEmptySettings(s: InstallState, jar: Option<Manifest>)
    ensures var r := Resolve(s, false, jar);
      && (r.error.None? || r.error == Some(MissingSarlSection)) && IsEmpty(s.mainClass) ==>
           r.state.mainClass == GetValue(jar.value.mainAttributes, MainClassKey)
    ensures var r := Resolve(s, false, jar);
      r.error.None? && IsEmpty(s.name) ==>
        r.state.name == Some(Unnullify(GetValue(jar.value.sections[SarlSectionKey], SreNameKey)))
  {
  }

  /**
   * An unforced resolution that succeeds fills empty version bounds from the
   * manifest; with a parseable `major.minor` specification version the
   * range becomes `[major.minor.0, major.(minor+1).0]`, and the version
   * lies in it.
   */
  lemma ResolveFillsEmptyVersions(s: InstallState, jar: Option<Manifest>, v: Version)
    requires Resolve(s, false, jar).error.None?
    requires IsEmpty(s.minimalSarlVersion) && IsEmpty(s.maximalSarlVersion)
    requires var section := jar.value.sections[SarlSectionKey];
      GetValue(section, SpecVersionKey).Some? && GetValue(section, SpecVersionKey).value != "" &&
      ParseVersion(GetValue(section, SpecVersionKey).value) == Some(v)
    requires v.minor < IntMax
    ensures var r := Resolve(s, false, jar).state;
      && r.minimalSarlVersion.Some? && r.maximalSarlVersion.Some?
      && ParseVersion(r.minimalSarlVersion.value) == Some(Version(v.major, v.minor, 0, ""))
      && ParseVersion(r.maximalSarlVersion.value) == Some(Version(v.major, v.minor + 1, 0, ""))
      && CompareVersions(Version(v.major, v.minor, 0, ""), v) <= 0
      && CompareVersions(v, Version(v.major, v.minor + 1, 0, "")) < 0
  {
    var spec := GetValue(jar.value.sections[SarlSectionKey], SpecVersionKey).value;
    SpecVersionWithinRange(spec, v);
  }

  // ---------------------------------------------------------------------
  // getName, getProgramArguments
  // ---------------------------------------------------------------------

  /** An install without a name is named after its jar file, `stem.ext` giving `stem`. */
  lemma NameOfUnnamedJar(s: InstallState, stem: string, extension: string)
    requires IsEmpty(s.name) && s.jarFile.Some?
    requires var segments := s.jarFile.value.segments;
      segments != [] && segments[|segments| - 1] == stem + "." + extension
    requires stem != "" && extension != "" && '.' !in extension
    ensures Name(s) == Some(stem)
  {
    StemOfFileName(s.jarFile.value, stem, extension);
  }

  /** `getLocation` never returns `null`: there is always a jar file or a name to fall back on. */
  lemma LocationNeverNull(s: InstallState)
    ensures Location(s).Some?
  {
  }

  /** The command line split at its first space: the main class, then the program arguments. */
  function SplitCommandLine(line: string): (string, string) {
    var n := IndexOf(line, ' ');
    (line[..n], if n < |line| then line[n + 1..] else "")
  }

  /** When the main class holds no space, the command line splits back into the main class and the program arguments. */
  lemma ProgramArgumentsSplit(s: InstallState)
    requires s.mainClass.Some? && ' ' !in s.mainClass.value
    ensures ProgramArguments(s).Some?
    ensures SplitCommandLine(ProgramArguments(s).value) == (s.mainClass.value, s.programArguments)
  {
    var c := s.mainClass.value;
    var line := ProgramArguments(s).value;
    if s.programArguments != "" {
      assert line[|c|] == ' ';
      assert line[..|c|] == c;
      assert IndexOf(line, ' ') == |c|;
      assert line[|c| + 1..] == s.programArguments;
    } else {
      assert IndexOf(line, ' ') == |c|;
      assert line[..|c|] == c;
    }
  }

  // ---------------------------------------------------------------------
  // setFromXML
  // ---------------------------------------------------------------------

  /** The library locations of the valid entries, front to back. */
  function ValidEntries(nodes: seq<Node>): seq<LibraryLocation> {
    if nodes == [] then []
    else
      var rest := ValidEntries(nodes[1..]);
      if IsLibraryNode(nodes[0]) && ReadLibraryLocation(nodes[0].element).Some?
      then [ReadLibraryLocation(nodes[0].element).value] + rest
      else rest
  }

  /** The number of `libraryLocation` entries without a system library path. */
  function InvalidEntries(nodes: seq<Node>): nat {
    if nodes == [] then 0
    else (if IsLibraryNode(nodes[0]) && ReadLibraryLocation(nodes[0].element).None? then 1 else 0)
         + InvalidEntries(nodes[1..])
  }

  lemma {:induction false} EntriesAppend(nodes: seq<Node>, node: Node)
    ensures ValidEntries(nodes + [node]) == ValidEntries(nodes) + ValidEntries([node])
    ensures InvalidEntries(nodes + [node]) == InvalidEntries(nodes) + InvalidEntries([node])
  {
    if nodes != [] {
      assert (nodes + [node])[1..] == nodes[1..] + [node];
      EntriesAppend(nodes[1..], node);
    }
  }

  /**
   * Reading the child nodes keeps, in order, the location of every
   * `libraryLocation` entry that has a system library path, skips every
   * other node, and logs one error per entry without a system library path.
   */
  lemma {:induction false} ScanKeepsValidEntries(nodes: seq<Node>, id: string)
    ensures ScanLibraryLocations(nodes, id).locations == ValidEntries(nodes)
    ensures |ScanLibraryLocations(nodes, id).messages| == InvalidEntries(nodes)
    ensures forall m :: m in ScanLibraryLocations(nodes, id).messages ==> m == InvalidXmlMessage(id)
    decreases |nodes|
  {
    if nodes != [] {
      var init, last := nodes[..|nodes| - 1], nodes[|nodes| - 1];
      assert nodes == init + [last];
      ScanKeepsValidEntries(init, id);
      EntriesAppend(init, last);
      assert [last][1..] == [];
    }
  }

  /**
   * `setFromXML` with a library path: the jar file is the parsed path, the
   * name and main class are replaced only by non-empty attributes, and the
   * library locations only when a valid entry was read; the messages of the
   * scan are appended to the error log, and the versions, arguments,
   * manifest values, VM-specific attributes, id and notification flag stay.
   */
  lemma FromXmlSettings(s: InstallState, e: Element)
    requires GetAttribute(e, LibraryPathAttribute) != ""
    ensures var r := FromXml(s, e).state;
      var nameText, mainClassText := GetAttribute(e, NameAttribute), GetAttribute(e, MainClassAttribute);
      && r.jarFile == Some(FromPortableString(GetAttribute(e, LibraryPathAttribute)))
      && r.name == (if nameText != "" then Some(nameText) else s.name)
      && r.mainClass == (if mainClassText != "" then Some(mainClassText) else s.mainClass)
      && r.libraryLocations == (if ValidEntries(e.children) != [] then ValidEntries(e.children) else s.libraryLocations)
      && |r.errorLog| == |s.errorLog| + InvalidEntries(e.children)
      && r.minimalSarlVersion == s.minimalSarlVersion && r.maximalSarlVersion == s.maximalSarlVersion
      && r.vmArguments == s.vmArguments && r.programArguments == s.programArguments
    ensures var r := FromXml(s, e).state;
      && r.errorLog == s.errorLog + ScanLibraryLocations(e.children, s.id).messages
      && r == s.(jarFile := r.jarFile, dirty := r.dirty, firedEvents := r.firedEvents, name := r.name,
                 mainClass := r.mainClass, libraryLocations := r.libraryLocations, errorLog := r.errorLog)
  {
    ScanKeepsValidEntries(e.children, s.id);
  }

  // ---------------------------------------------------------------------
  // getAsXML followed by setFromXML
  // ---------------------------------------------------------------------

  predicate ValidUrl(u: Url) {
    u.protocol != "" && ':' !in u.protocol
  }

  lemma UrlRoundTrip(u: Url)
    requires ValidUrl(u)
    ensures ParseUrl(UrlToString(u)) == Some(u)
  {
    var text := UrlToString(u);
    assert text[..|u.protocol|] == u.protocol;
    assert text[|u.protocol|] == ':';
    assert IndexOf(text, ':') == |u.protocol|;
    assert text[|u.protocol| + 1..] == u.rest;
  }

  /** A path the XML can carry: well formed; as the system library path, also non-empty. */
  predicate PersistableLocation(l: LibraryLocation) {
    && ValidPath(l.systemLibraryPath) && ToPortableString(l.systemLibraryPath) != ""
    && ValidPath(l.sourcePath) && ValidPath(l.packageRootPath)
    && (l.javadoc.Some? ==> ValidUrl(l.javadoc.value))
  }

  /** A path written as an attribute comes back, the empty path through the default. */
  lemma ParsePathRoundTrip(p: Path)
    requires ValidPath(p)
    ensures ParsePath(ToPortableString(p), Some(EmptyPath)) == Some(p)
    ensures ToPortableString(p) != "" ==> ParsePath(ToPortableString(p), None) == Some(p)
  {
    PortableRoundTrip(p);
  }

  /** The attributes of a `libraryLocation` element, as `getAttribute` reads them. */
  lemma LibraryElementAttributes(l: LibraryLocation)
    ensures var e := LibraryElement(l);
      && GetAttribute(e, SystemLibraryPathAttribute) == ToPortableString(l.systemLibraryPath)
      && GetAttribute(e, SourcePathAttribute) == ToPortableString(l.sourcePath)
      && GetAttribute(e, PackageRootPathAttribute) == ToPortableString(l.packageRootPath)
      && GetAttribute(e, JavadocAttribute) == (if l.javadoc.Some? then UrlToString(l.javadoc.value) else "")
  {
  }

  lemma LibraryElementRoundTrip(l: LibraryLocation)
    requires PersistableLocation(l)
    ensures IsLibraryNode(ElementNode(LibraryElement(l)))
    ensures ReadLibraryLocation(LibraryElement(l)) == Some(l)
  {
    LibraryElementAttributes(l);
    ParsePathRoundTrip(l.systemLibraryPath);
    ParsePathRoundTrip(l.sourcePath);
    ParsePathRoundTrip(l.packageRootPath);
    if l.javadoc.Some? {
      UrlRoundTrip(l.javadoc.value);
    }
  }

  lemma ScanAppend(nodes: seq<Node>, node: Node, id: string)
    ensures ScanLibraryLocations(nodes + [node], id) == ScanStep(ScanLibraryLocations(nodes, id), node, id)
  {
    assert (nodes + [node])[..|nodes|] == nodes;
  }

  lemma LibraryNodesAppend(libraries: seq<LibraryLocation>, l: LibraryLocation)
    ensures LibraryNodes(libraries + [l]) == LibraryNodes(libraries) + [ElementNode(LibraryElement(l))]
  {
  }

  lemma {:induction false} ScanLibraryNodes(libraries: seq<LibraryLocation>, id: string)
    requires forall i :: 0 <= i < |libraries| ==> PersistableLocation(libraries[i])
    ensures ScanLibraryLocations(LibraryNodes(libraries), id) == LocationScan(libraries, [])
    decreases |libraries|
  {
    if libraries != [] {
      var n := |libraries|;
      var init, last := libraries[..n - 1], libraries[n - 1];
      assert init + [last] == libraries;
      LibraryNodesAppend(init, last);
      ScanAppend(LibraryNodes(init), ElementNode(LibraryElement(last)), id);
      ScanLibraryNodes(init, id);
      LibraryElementRoundTrip(last);
    }
  }

  /** A fresh element for `getAsXML` to fill. */
  function EmptyElement(tag: string): Element {
    Element(tag, map[], [])
  }

  /** The attributes `getAsXML` writes, as `getAttribute` reads them back. */
  lemma AsXmlAttributesRead(s: InstallState, element: Element)
    requires s.jarFile.Some?
    ensures var x := AsXmlAttributes(s, element).value;
      && GetAttribute(x, LibraryPathAttribute) == ToPortableString(s.jarFile.value)
      && (Name(s).Some? && !EqualsString(Name(s), s.manifestName) ==> GetAttribute(x, NameAttribute) == Name(s).value)
      && (EqualsString(Name(s), s.manifestName) ==> GetAttribute(x, NameAttribute) == GetAttribute(element, NameAttribute))
      && (s.mainClass.Some? && s.mainClass != s.manifestMainClass ==> GetAttribute(x, MainClassAttribute) == s.mainClass.value)
      && (s.mainClass == s.manifestMainClass ==> GetAttribute(x, MainClassAttribute) == GetAttribute(element, MainClassAttribute))
  {
  }

  /** Reading back attributes that carry the jar file, the name and the main class of `s`. */
  lemma ReadBackSettings(s: InstallState, t: InstallState, x: Element)
    requires s.jarFile.Some? && ValidPath(s.jarFile.value) && ToPortableString(s.jarFile.value) != ""
    requires GetAttribute(x, LibraryPathAttribute) == ToPortableString(s.jarFile.value)
    requires !IsEmpty(Name(s)) && !EqualsString(Name(s), s.manifestName) ==> GetAttribute(x, NameAttribute) == Name(s).value
    requires !IsEmpty(s.mainClass) && s.mainClass != s.manifestMainClass ==> GetAttribute(x, MainClassAttribute) == s.mainClass.value
    ensures var r := FromXml(t, x);
      && r.ok
      && r.state.jarFile == s.jarFile
      && (!IsEmpty(Name(s)) && !EqualsString(Name(s), s.manifestName) ==> r.state.name == Name(s))
      && (!IsEmpty(s.mainClass) && s.mainClass != s.manifestMainClass ==> r.state.mainClass == s.mainClass)
  {
    ParsePathRoundTrip(s.jarFile.value);
    FromXmlSettings(t, x);
  }

  /**
   * Writing an install to XML and reading it into any install restores the
   * jar file, and the name and main class where they differ from the
   * manifest's.
   */
  lemma XmlRoundTripSettings(s: InstallState, t: InstallState, tag: string)
    requires s.jarFile.Some? && ValidPath(s.jarFile.value) && ToPortableString(s.jarFile.value) != ""
    ensures AsXml(s, EmptyElement(tag)).Some?
    ensures var r := FromXml(t, AsXml(s, EmptyElement(tag)).value);
      && r.ok
      && r.state.jarFile == s.jarFile
      && (!IsEmpty(Name(s)) && !EqualsString(Name(s), s.manifestName) ==> r.state.name == Name(s))
      && (!IsEmpty(s.mainClass) && s.mainClass != s.manifestMainClass ==> r.state.mainClass == s.mainClass)
  {
    var element := EmptyElement(tag);
    var x := AsXml(s, element).value;
    AsXmlAttributesRead(s, element);
    ReadBackSettings(s, t, x);
  }

  /** Reading back library elements written for `written`. */
  lemma ReadBackLibraries(t: InstallState, x: Element, written: seq<LibraryLocation>)
    requires GetAttribute(x, LibraryPathAttribute) != ""
    requires forall i :: 0 <= i < |written| ==> PersistableLocation(written[i])
    requires x.children == LibraryNodes(written)
    ensures var r := FromXml(t, x);
      && r.ok
      && r.state.libraryLocations == (if written != [] then written else t.libraryLocations)
      && r.state.errorLog == t.errorLog
  {
    ScanLibraryNodes(written, t.id);
    assert FromXml(t, x).state.errorLog == t.errorLog + ScanLibraryLocations(x.children, t.id).messages;
  }

  /**
   * Writing an install to XML and reading it into any install restores the
   * library locations, unless they are only the jar file itself or there
   * are none (then the reading install keeps its own), and logs no error.
   */
  lemma XmlRoundTripLibraries(s: InstallState, t: InstallState, tag: string)
    requires s.jarFile.Some? && ToPortableString(s.jarFile.value) != ""
    requires forall i :: 0 <= i < |s.libraryLocations| ==> PersistableLocation(s.libraryLocations[i])
    ensures AsXml(s, EmptyElement(tag)).Some?
    ensures var r := FromXml(t, AsXml(s, EmptyElement(tag)).value);
      && r.ok
      && (LibrariesWritten(s) && s.libraryLocations != [] ==> r.state.libraryLocations == s.libraryLocations)
      && (!LibrariesWritten(s) || s.libraryLocations == [] ==> r.state.libraryLocations == t.libraryLocations)
      && r.state.errorLog == t.errorLog
  {
    var element := EmptyElement(tag);
    var x := AsXml(s, element).value;
    AsXmlAttributesRead(s, element);
    assert GetAttribute(x, LibraryPathAttribute) == ToPortableString(s.jarFile.value);
    var written := if LibrariesWritten(s) then s.libraryLocations else [];
    assert x.children == LibraryNodes(written);
    ReadBackLibraries(t, x, written);
  }

  /**
   * `getAsXML` as written loses the library locations: reading its XML into
   * an install leaves that install's library locations as they were.
   */
  lemma AsWrittenDropsLibraryLocations(s: InstallState, t: InstallState, tag: string)
    requires s.jarFile.Some? && ToPortableString(s.jarFile.value) != ""
    ensures AsXmlAsWritten(s, EmptyElement(tag)).Some?
    ensures var r := FromXml(t, AsXmlAsWritten(s, EmptyElement(tag)).value);
      r.ok && r.state.libraryLocations == t.libraryLocations
  {
  }

  /** An install with two library locations, which `getAsXML` should write out. */
  function TwoLibraryInstall(): (s: InstallState)
    ensures s.jarFile.Some? && ToPortableString(s.jarFile.value) != ""
    ensures LibrariesWritten(s) && s.libraryLocations != []
    ensures forall i :: 0 <= i < |s.libraryLocations| ==> PersistableLocation(s.libraryLocations[i])
  {
    var jar := Path(true, ["opt", "sre.jar"]);
    var extra := Path(true, ["opt", "extra.jar"]);
    assert ValidPath(jar) && ValidPath(extra);
    Initial("sre").(jarFile := Some(jar),
                    libraryLocations := [LibraryLocation(jar, EmptyPath, EmptyPath, None),
                                         LibraryLocation(extra, EmptyPath, EmptyPath, None)])
  }

  /**
   * On that install, the XML written as the source does it, read back into
   * a fresh install, has no library locations at all, where the XML with
   * the library elements appended gives both back.
   */
  lemma AsWrittenLosesTwoLibraries(t: InstallState)
    requires t == Initial("sre")
    ensures AsXmlAsWritten(TwoLibraryInstall(), EmptyElement("sre")).Some?
    ensures FromXml(t, AsXmlAsWritten(TwoLibraryInstall(), EmptyElement("sre")).value).state.libraryLocations == []
    ensures AsXml(TwoLibraryInstall(), EmptyElement("sre")).Some?
    ensures FromXml(t, AsXml(TwoLibraryInstall(), EmptyElement("sre")).value).state.libraryLocations
            == TwoLibraryInstall().libraryLocations
  {
    var s := TwoLibraryInstall();
    AsWrittenDropsLibraryLocations(s, t, "sre");
    XmlRoundTripLibraries(s, t, "sre");
  }
}

=== FILE: strings.dfy ===
/** Splitting and joining strings on a separator character. */
module Strings {

  /** Index of the first `c` in `s`, or `|s|` when there is none. */
  function IndexOf(s: string, c: char): (n: nat)
    ensures n <= |s|
    ensures c !in s[..n]
    ensures n < |s| ==> s[n] == c
  {
    if s == [] then 0
    else if s[0] == c then 0
    else
      var n := 1 + IndexOf(s[1..], c);
      assert s[..n] == [s[0]] + s[1..][..n - 1];
      n
  }

  /** `String.lastIndexOf(c)`: index of the last `c` in `s`, or -1. */
  function LastIndexOf(s: string, c: char): (r: int)
    ensures -1 <= r < |s|
    ensures r >= 0 ==> s[r] == c && c !in s[r + 1..]
    ensures r < 0 ==> c !in s
  {
    if s == [] then -1
    else if s[|s| - 1] == c then |s| - 1
    else
      var r := LastIndexOf(s[..|s| - 1], c);
      assert r >= 0 ==> s[r + 1..] == s[..|s| - 1][r + 1..] + [s[|s| - 1]];
      assert r < 0 ==> s == s[..|s| - 1] + [s[|s| - 1]];
      r
  }

  /** The pieces of `s` between occurrences of `sep`, empty pieces included. */
  function Split(s: string, sep: char): (parts: seq<string>)
    ensures |parts| >= 1
    ensures forall i :: 0 <= i < |parts| ==> sep !in parts[i]
    decreases |s|
  {
    var n := IndexOf(s, sep);
    if n == |s| then [s] else [s[..n]] + Split(s[n + 1..], sep)
  }

  /** The pieces joined with `sep` between consecutive ones. */
  function Join(parts: seq<string>, sep: char): string {
    if |parts| == 0 then ""
    else if |parts| == 1 then parts[0]
    else parts[0] + [sep] + Join(parts[1..], sep)
  }

  /** Splitting undoes joining whenever no piece holds the separator. */
  lemma {:induction false} SplitJoin(parts: seq<string>, sep: char)
    requires |parts| >= 1
    requires forall i :: 0 <= i < |parts| ==> sep !in parts[i]
    ensures Split(Join(parts, sep), sep) == parts
  {
    var s := Join(parts, sep);
    var head := parts[0];
    if |parts| == 1 {
      assert s[..|head|] == head;
    } else {
      var rest := Join(parts[1..], sep);
      assert s == head + [sep] + rest;
      assert s[..|head|] == head;
      assert s[|head|] == sep;
      assert IndexOf(s, sep) == |head|;
      assert s[|head| + 1..] == rest;
      SplitJoin(parts[1..], sep);
      assert parts == [head] + parts[1..];
    }
  }

  /** The non-empty pieces, in order. */
  function NonEmpty(parts: seq<string>): (r: seq<string>)
    ensures forall i :: 0 <= i < |r| ==> r[i] != "" && r[i] in parts
  {
    if parts == [] then []
    else if parts[0] == "" then NonEmpty(parts[1..])
    else [parts[0]] + NonEmpty(parts[1..])
  }

  lemma {:induction false} NonEmptyKeepsNonEmpty(parts: seq<string>)
    requires forall i :: 0 <= i < |parts| ==> parts[i] != ""
    ensures NonEmpty(parts) == parts
  {
    if parts != [] {
      NonEmptyKeepsNonEmpty(parts[1..]);
    }
  }
}

=== FILE: versions.dfy ===
/**
 * OSGi `Version`, reduced to what the SRE install uses: parsing a
 * `major[.minor[.micro[.qualifier]]]` string, printing a version, comparing
 * two versions, and deriving the supported SARL version range.
 */
module Versions {
  import opened Options
  import opened JavaLang
  import opened Strings

  datatype Version = Version(major: nat, minor: nat, micro: nat, qualifier: string)

  predicate IsDigit(c: char) {
    '0' <= c <= '9'
  }

  predicate IsDigits(s: string) {
    s != [] && forall i :: 0 <= i < |s| ==> IsDigit(s[i])
  }

  predicate IsQualifierChar(c: char) {
    ('a' <= c <= 'z') || ('A' <= c <= 'Z') || IsDigit(c) || c == '_' || c == '-'
  }

  predicate IsQualifier(q: string) {
    forall i :: 0 <= i < |q| ==> IsQualifierChar(q[i])
  }

  /** What the `Version` constructor accepts: components within `int`, a well-formed qualifier. */
  predicate ValidVersion(v: Version) {
    v.major <= IntMax && v.minor <= IntMax && v.micro <= IntMax && IsQualifier(v.qualifier)
  }

  /** The decimal value of a string of digits. */
  function DigitsValue(s: string): nat
    requires forall i :: 0 <= i < |s| ==> IsDigit(s[i])
  {
    if s == [] then 0
    else
      assert IsDigit(s[|s| - 1]);
      10 * DigitsValue(s[..|s| - 1]) + (s[|s| - 1] as int - '0' as int)
  }

  /** The decimal form of `n`, without leading zeros. */
  function NumberToString(n: nat): (s: string)
    ensures IsDigits(s) && DigitsValue(s) == n
    ensures '.' !in s
  {
    var digit := ('0' as int + n % 10) as char;
    if n < 10 then [digit]
    else
      var prefix := NumberToString(n / 10);
      var s := prefix + [digit];
      assert s[..|s| - 1] == prefix;
      s
  }

  /** `Integer.parseInt` on a string of ASCII digits: fails on anything else or beyond `Integer.MAX_VALUE`. */
  function ParseNumber(s: string): (r: Option<nat>)
    ensures r.Some? ==> r.value <= IntMax
  {
    if IsDigits(s) && DigitsValue(s) <= IntMax then Some(DigitsValue(s)) else None
  }

  /**
   * `Version.parseVersion` on a non-empty string: one to three numeric
   * components separated by `.`, then optionally a `.` and a non-empty
   * qualifier; missing components are 0.
   */
  function ParseVersion(s: string): (r: Option<Version>)
    ensures r.Some? ==> ValidVersion(r.value)
  {
    var parts := Split(s, '.');
    var major := ParseNumber(parts[0]);
    var minor := if |parts| > 1 then ParseNumber(parts[1]) else Some(0);
    var micro := if |parts| > 2 then ParseNumber(parts[2]) else Some(0);
    var qualifier := if |parts| > 3 then parts[3] else "";
    if |parts| > 4 || major.None? || minor.None? || micro.None? then None
    else if |parts| == 4 && (qualifier == "" || !IsQualifier(qualifier)) then None
    else Some(Version(major.value, minor.value, micro.value, qualifier))
  }

  /** `Version.toString()`: `major.minor.micro`, then `.qualifier` when there is one. */
  function VersionToString(v: Version): string {
    NumberToString(v.major) + "." + NumberToString(v.minor) + "." + NumberToString(v.micro)
    + (if v.qualifier == "" then "" else "." + v.qualifier)
  }

  /** `Version.compareTo`: by major, minor and micro numbers, then by qualifier. */
  function CompareVersions(v: Version, w: Version): int {
    if v.major != w.major then v.major - w.major
    else if v.minor != w.minor then v.minor - w.minor
    else if v.micro != w.micro then v.micro - w.micro
    else CompareTo(v.qualifier, w.qualifier)
  }

  lemma {:induction false} ParseNumberOfDigits(s: string, n: nat)
    requires IsDigits(s) && DigitsValue(s) == n
    ensures ParseNumber(s) == (if n <= IntMax then Some(n) else None)
  {
  }

  lemma JoinThree(a: string, b: string, c: string)
    ensures Join([a, b, c], '.') == a + "." + b + "." + c
  {
    assert [a, b, c][1..] == [b, c];
    assert [b, c][1..] == [c];
    assert Join([c], '.') == c;
    assert Join([b, c], '.') == b + ['.'] + c;
    assert Join([a, b, c], '.') == a + ['.'] + (b + ['.'] + c);
  }

  lemma JoinFour(a: string, b: string, c: string, d: string)
    ensures Join([a, b, c, d], '.') == a + "." + b + "." + c + "." + d
  {
    assert [a, b, c, d][1..] == [b, c, d];
    JoinThree(b, c, d);
    assert Join([a, b, c, d], '.') == a + ['.'] + (b + "." + c + "." + d);
  }

  /** Parsing a printed version gives the version back. */
  lemma VersionRoundTrip(v: Version)
    requires ValidVersion(v)
    ensures ParseVersion(VersionToString(v)) == Some(v)
  {
    var a, b, c := NumberToString(v.major), NumberToString(v.minor), NumberToString(v.micro);
    var parts := if v.qualifier == "" then [a, b, c] else [a, b, c, v.qualifier];
    assert '.' !in v.qualifier;
    if v.qualifier == "" {
      JoinThree(a, b, c);
      assert VersionToString(v) == a + "." + b + "." + c;
    } else {
      JoinFour(a, b, c, v.qualifier);
      assert VersionToString(v) == a + "." + b + "." + c + "." + v.qualifier;
    }
    SplitJoin(parts, '.');
    assert Split(VersionToString(v), '.') == parts;
    ParseNumberOfDigits(a, v.major);
    ParseNumberOfDigits(b, v.minor);
    ParseNumberOfDigits(c, v.micro);
  }

  // ---------------------------------------------------------------------
  // The SARL specification version range of an SRE
  // ---------------------------------------------------------------------

  /** The minimal and maximal SARL versions an SRE supports; `None` is `null`. */
  datatype VersionRange = VersionRange(minimal: Option<string>, maximal: Option<string>)

  /**
   * From a `SARL-Spec-Version` of `major.minor...`: minimal version
   * `major.minor.0`, maximal version `major.(minor+1).0`. An absent, empty
   * or unparseable value yields neither. When `minor + 1` overflows `int`,
   * building the maximal version throws after the minimal one was computed,
   * and the exception is swallowed: the minimal version alone is kept.
   */
  function SpecVersionRange(spec: Option<string>): (r: VersionRange)
    ensures r.minimal.None? <==> spec.None? || spec.value == "" || ParseVersion(spec.value).None?
    ensures r.maximal.Some? ==> r.minimal.Some?
    ensures r.minimal.Some? && r.maximal.None? <==> r.minimal.Some? && ParseVersion(spec.value).value.minor == IntMax
  {
    if spec.None? || spec.value == "" then VersionRange(None, None)
    else
      match ParseVersion(spec.value)
      case None => VersionRange(None, None)
      case Some(v) =>
        var minimal := VersionToString(Version(v.major, v.minor, 0, ""));
        if v.minor + 1 > IntMax then VersionRange(Some(minimal), None)
        else VersionRange(Some(minimal), Some(VersionToString(Version(v.major, v.minor + 1, 0, ""))))
  }

  /**
   * A parseable specification version lies in its range: the minimal version
   * is `major.minor.0` and at most the version, the maximal one is
   * `major.(minor+1).0` and above it.
   */
  lemma SpecVersionWithinRange(spec: string, v: Version)
    requires spec != "" && ParseVersion(spec) == Some(v) && v.minor < IntMax
    ensures var r := SpecVersionRange(Some(spec));
      && r.minimal.Some? && r.maximal.Some?
      && ParseVersion(r.minimal.value) == Some(Version(v.major, v.minor, 0, ""))
      && ParseVersion(r.maximal.value) == Some(Version(v.major, v.minor + 1, 0, ""))
      && CompareVersions(Version(v.major, v.minor, 0, ""), v) <= 0
      && CompareVersions(v, Version(v.major, v.minor + 1, 0, "")) < 0
  {
    VersionRoundTrip(Version(v.major, v.minor, 0, ""));
    VersionRoundTrip(Version(v.major, v.minor + 1, 0, ""));
  }
}

=== FILE: xml.dfy ===
/** The slice of the W3C DOM that the SRE install reads and writes. */
module Xml {

  datatype Element = Element(tagName: string, attributes: map<string, string>, children: seq<Node>)

  /** A child node: an element, or text (or any other node that is not an element). */
  datatype Node = ElementNode(element: Element) | TextNode(text: string)

  /** `Element.getAttribute`: the empty string when the attribute is absent, never `null`. */
  function GetAttribute(e: Element, key: string): (value: string)
    ensures key in e.attributes ==> value == e.attributes[key]
    ensures key !in e.attributes ==> value == ""
  {
    if key in e.attributes then e.attributes[key] else ""
  }

  /** `Element.setAttribute` */
  function SetAttribute(e: Element, key: string, value: string): (r: Element)
    ensures GetAttribute(r, key) == value
    ensures forall k :: k != key ==> GetAttribute(r, k) == GetAttribute(e, k)
    ensures r.tagName == e.tagName && r.children == e.children
  {
    e.(attributes := e.attributes[key := value])
  }

  function ToLowerAscii(c: char): char {
    if 'A' <= c <= 'Z' then (c as int - 'A' as int + 'a' as int) as char else c
  }

  /** `String.equalsIgnoreCase`, with case folding restricted to ASCII letters. */
  predicate EqualsIgnoreCase(s: string, t: string) {
    |s| == |t| && forall i :: 0 <= i < |s| ==> ToLowerAscii(s[i]) == ToLowerAscii(t[i])
  }
}
